=== FILE: README.md ===
# Ship evacuation simulator: agent controller, crowd volume and fire volume

This project is a Dafny model of the core behaviour of the Ship-Evacuation-Simulator, an Unreal
Engine crowd simulation of a ship being evacuated. The model covers:

- the evacuating agent (`AAiCharacter`):
  - per-frame local avoidance (the repulsion force and the movement input it produces);
  - the footprint resize state machine (shrink, restore, per-frame interpolation);
  - the periodic stuck check;
  - off-surface recovery (the on-mesh check, the fallback point, the per-frame relocation);
  - the throttled retuning (stairs speed, a corridor-width estimate mapped to an avoidance
    weight, the neighbour cache);
  - the density-based weight rule;
  - spawn, and the end of the run once the agent has mustered;
- the agent's custom movement component, which clamps horizontal walking speed;
- the crowd-density volume: its congestion decision and the navigation modifier that follows it;
- the fire volume: its timed, quartic ease-in growth.

How the engine appears in the model:

- Every piece of state is an immutable record, and every callback is a pure function from
  record to record.
- The engine's vector math is written out over reals in module `Engine`: safe normalisation,
  clamping to a maximum size, nearly-zero and nearly-equal tests, clamped range mapping, lerp.
- The vector length is a parameter `size`, constrained to be the non-negative square root of
  the squared length.
- The navigation system is a parameter: either absent, or a projection function from a point
  and a query extent to an optional point on the mesh.
- The engine's interpolations toward a target are a fraction in [0, 1] of the remaining
  distance.
- The engine's timer scheduler becomes a sequence of events (module `Lifecycle`). A frame is
  delivered only while ticking is enabled, and a timer callback only while its timer is set.

Modules:

| module | file | models |
|---|---|---|
| `Engine` | engine.dfy | vector and scalar math, the length and navigation parameters |
| `Character` | character.dfy | the agent record |
| `Footprint` | footprint.dfy | capsule shrink, restore and the resize branch of a frame |
| `StuckDetection` | stuck.dfy | the periodic stuck check |
| `NavRecovery` | recovery.dfy | the off-surface check, the fallback point and the relocation step |
| `Avoidance` | avoidance.dfy | the repulsion force and the movement input of a frame |
| `Tuning` | tuning.dfy | the throttled update, the width estimate and the weight rules |
| `Lifecycle` | lifecycle.dfy | construction, spawn, frames, events, the end of the run |
| `AgentMovement` | agent_movement.dfy | the horizontal speed clamp after a walking step |
| `CrowdDensity` | crowd_density.dfy | the congestion check and the navigation modifier |
| `FireSpread` | fire_volume.dfy | the fire volume's expansion timer |

## Where the code differs from what its names suggest

The model follows the code in each case:

- **Repulsion strength.** The gate at AICharacter.cpp:52 admits neighbours closer than 80
  units, but the strength at line 54 is `(20 - d) / 20`. A neighbour between 20 and 80 units
  away therefore pulls the agent toward it (`Avoidance.AttractsBeyondFalloff`); only one closer
  than 20 units pushes it away, although the section is headed "Repulsion behavior".
- **Initial capsule targets.** `TargetCapsuleRadius` and `TargetCapsuleHalfHeight` start at zero
  from their initializers at AICharacter.h:79-80, not at the cached defaults. The footprint
  invariant admits this "untouched" state, and while in it no resize is in progress.
- **Unused setting.** `RecoverySpeed` (500, AICharacter.h:87) is never read: the relocation at
  AICharacter.cpp:247 interpolates at the literal speed 2.
- **Density weight rule is never called.** Its only call, at AICharacter.cpp:147 in the
  throttled update, is commented out. The model keeps it as a separate operation,
  `Tuning.AdjustAvoidanceWeight`.
- **The mustered flag.** `bHasMustered` (AICharacter.h:16-17) is a public property that no line
  of AICharacter.cpp assigns; `FinishedMustering` (AICharacter.cpp:271-291) does not set it. The
  model keeps it unchanged in every operation.

## Model

| member | source | states |
|---|---|---|
| Footprint.ShrinkCapsule | Source/ShipEvacuationSim/AICharacter.cpp:103-115 | a mustered agent is untouched; otherwise the footprint is marked shrunk and resizing toward 0.7 of the default radius and 0.8 of the default half-height, the restore timer is armed, nothing else changes, and the footprint invariant is kept |
| Footprint.RestoreCapsule | Source/ShipEvacuationSim/AICharacter.cpp:117-125 | the agent is unshrunk and resizing toward exactly its defaults with the stall time reset, whatever its state before, so the footprint invariant holds afterwards |
| Footprint.ResizeTick | Source/ShipEvacuationSim/AICharacter.cpp:80-94 | a resize step never moves either dimension farther from its target, ends exactly when both dimensions are within 0.5 of their targets, and keeps the footprint invariant |
| StuckDetection.CheckIfStuck | Source/ShipEvacuationSim/AICharacter.cpp:150-173 | a check adds 0.3 of stall time when the agent moved less than 5 units and otherwise resets the stall time and resamples the location; the shrink is requested exactly when the stall time exceeds 2 and the footprint is not shrunk, and the nudge exactly when the shrink is requested on stairs; a requested shrink is exactly the capsule shrink applied to the resampled agent, and otherwise nothing but the stall time and the sampled location changes |
| StuckDetection.StallAccumulates | Source/ShipEvacuationSim/AICharacter.cpp:152-162 | over up to six checks a stationary agent only accumulates 0.3 of stall time per check |
| StuckDetection.CheckAfterStall | Source/ShipEvacuationSim/AICharacter.cpp:152-166 | for a stationary, unshrunk agent, a check requests the shrink exactly when the stall time plus 0.3 exceeds 2 |
| StuckDetection.ShrinkOnCheckExactly | Source/ShipEvacuationSim/AICharacter.cpp:150-173 | for a stationary agent starting from zero stall time, the k-th check, k from 1 to 7, requests the shrink exactly when k is 7 |
| StuckDetection.TriggeredCheckShrinks | Source/ShipEvacuationSim/AICharacter.cpp:103-115 | a check in a run that requests the shrink leaves an agent that has not mustered shrunk with the restore timer armed |
| StuckDetection.ChecksKeepMustered | Source/ShipEvacuationSim/AICharacter.cpp:150-173 | no run of checks changes whether the agent has mustered |
| StuckDetection.ShrinkOnSeventhCheck | Source/ShipEvacuationSim/AICharacter.cpp:150-173 | a stationary agent starting from zero stall time has the shrink requested on exactly the seventh check, which leaves it shrunk with the restore timer armed |
| StuckDetection.NoShrinkWhileShrunk | Source/ShipEvacuationSim/AICharacter.cpp:164-166 | while the footprint is shrunk no run of checks requests another shrink |
| NavRecovery.FindClosestValidPoint | Source/ShipEvacuationSim/AICharacter.cpp:228-237 | the fallback is the mesh projection within 500 units when there is one, and the agent's own location otherwise; the search never fails |
| NavRecovery.CheckNavMeshRecovery | Source/ShipEvacuationSim/AICharacter.cpp:208-226 | a recovering agent, an agent without a navigation system and an agent on the mesh within 100 units are untouched; otherwise the agent starts recovering toward the fallback with movement disabled |
| NavRecovery.SmoothRecoverToNavMesh | Source/ShipEvacuationSim/AICharacter.cpp:245-269 | with a navigation system, the agent moves to the 50-unit projection of the interpolated point whenever that projection exists and stays put otherwise; without one it stays put; recovery ends with walking restored and velocity zeroed exactly when it lands within 10 units of the target |
| NavRecovery.RecoveryStepProgress | Source/ShipEvacuationSim/AICharacter.cpp:247-255 | when the interpolated point is on the mesh, one step scales the squared distance to the target by (1 - fraction)^2 |
| NavRecovery.SelfFallbackEndsNextStep | Source/ShipEvacuationSim/AICharacter.cpp:216-259 | an agent whose fallback search fails targets its own location, and the next relocation step ends the recovery in place with walking restored |
| Avoidance.Strength | Source/ShipEvacuationSim/AICharacter.cpp:54 | the strength is positive closer than 20 units, negative beyond, and at most 1 |
| Avoidance.Contribution | Source/ShipEvacuationSim/AICharacter.cpp:48-56 | a neighbour outside the gate contributes nothing; for one inside, the contribution's dot product with the offset away from the neighbour is the strength times the distance and its squared length is the strength squared, so it points away from the neighbour when the strength is positive, toward it when the strength is negative, and its length is the strength's magnitude |
| Avoidance.AttractsBeyondFalloff | Source/ShipEvacuationSim/AICharacter.cpp:52-55 | a neighbour between 20 and 80 units away pulls the agent toward it |
| Avoidance.RepelsWithinFalloff | Source/ShipEvacuationSim/AICharacter.cpp:52-55 | a neighbour closer than 20 units pushes the agent away from it |
| Avoidance.QuietNeighbourhoodNoForce | Source/ShipEvacuationSim/AICharacter.cpp:45-57 | when no cached neighbour except the agent itself is inside the gate, the summed force is zero |
| Avoidance.RepulsionSum | Source/ShipEvacuationSim/AICharacter.cpp:45-57 | a cache holding only the agent itself sums to zero, and a single other neighbour sums to its contribution; with RepulsionSumConcat, the sum over any cache is the sum of its neighbours' contributions, the agent itself skipped |
| Avoidance.RepulsionSumConcat | Source/ShipEvacuationSim/AICharacter.cpp:45-57 | summing the contributions over a neighbour list split in two and adding the two sums gives the sum over the whole list, the agent itself being skipped in both |
| Avoidance.RepulsionSumOrderFree | Source/ShipEvacuationSim/AICharacter.cpp:45-57 | swapping the two halves of the neighbour list does not change the summed force |
| Avoidance.RepulsionForce | Source/ShipEvacuationSim/AICharacter.cpp:45-59 | the avoidance force points the same way as the sum of the contributions; it is the sum itself when the sum has at most unit length and has exactly unit length otherwise |
| Avoidance.Heading | Source/ShipEvacuationSim/AICharacter.cpp:61-62 | the heading is zero exactly when the velocity is nearly zero, and otherwise is the unit vector along the velocity |
| Avoidance.Blend | Source/ShipEvacuationSim/AICharacter.cpp:61-65 | for a nearly-zero velocity the blend is twice the force, and without a force it is the heading |
| Avoidance.NormalisedIsNotNearlyZero | Source/ShipEvacuationSim/AICharacter.cpp:67-70 | a vector's safe normal is nearly zero exactly when the vector's squared length is below the normalisation tolerance, so the input test on the normalised blend is a length test on the blend |
| Avoidance.IdleIssues | Source/ShipEvacuationSim/AICharacter.cpp:64-75 | for an idle agent, the issue condition holds exactly when the force's squared length exceeds 0.01: twice such a force is always long enough to normalise |
| Avoidance.MovementInput | Source/ShipEvacuationSim/AICharacter.cpp:59-77 | an input, when issued, is the unit vector along the blend of the heading and twice the avoidance force; it is issued exactly when the blend of heading and twice the force is normalisable and the agent is moving or the force's squared length exceeds 0.01; and an idle agent receives one exactly when that squared length exceeds 0.01 |
| Avoidance.InputFor | Source/ShipEvacuationSim/AICharacter.cpp:61-77 | for any velocity and force, an issued input is the unit vector along the blend of the heading and twice the clamped force, and one is issued exactly when the blend of heading and twice the clamped force is normalisable and the agent is moving or the clamped force's squared length exceeds 0.01 |
| Avoidance.InputWithoutForce | Source/ShipEvacuationSim/AICharacter.cpp:61-77 | without a force, a moving agent's input is its unit velocity and an idle agent gets none |
| Avoidance.IdleInputFollowsForce | Source/ShipEvacuationSim/AICharacter.cpp:64-75 | an idle agent's input, when issued, points along the force |
| Avoidance.HeadingWithoutRepulsion | Source/ShipEvacuationSim/AICharacter.cpp:45-77 | with a zero avoidance force, a moving agent keeps heading along its velocity and an idle agent is not moved |
| Avoidance.IdleAgentFollowsRepulsion | Source/ShipEvacuationSim/AICharacter.cpp:45-77 | an idle agent that is moved at all is moved along its avoidance force |
| AgentMovement.HorizontalSpeedClamp | Source/ShipEvacuationSim/Private/AgentMovementComponent.cpp:10-18 | the vertical velocity is kept, a horizontal speed within the limit is untouched, and a faster one is cut to the limit in the same direction, or to zero for a limit below 1e-4, where the engine's clamp returns the zero vector |
| AgentMovement.ClampNeverAccelerates | Source/ShipEvacuationSim/Private/AgentMovementComponent.cpp:12-17 | the clamp never increases the horizontal speed |
| Tuning.EstimateNavMeshWidth | Source/ShipEvacuationSim/AICharacter.cpp:305-324 | the width is the distance between the two 50-unit side projections when both exist, twice the sample distance when one does, and zero when neither does or there is no navigation system |
| Tuning.WidthIgnoresFacing | Source/ShipEvacuationSim/AICharacter.cpp:311-319 | turning the agent around does not change the estimated width |
| Tuning.AvoidanceWeightForWidth | Source/ShipEvacuationSim/AICharacter.cpp:136-142 | the weight for any width lies between 10 and 30 |
| Tuning.WeightClosedForm | Source/ShipEvacuationSim/AICharacter.cpp:136-142 | the weight is 30 for widths up to 80, 10 from 200 on, and falls linearly by 1/6 per unit in between |
| Tuning.WeightNonIncreasing | Source/ShipEvacuationSim/AICharacter.cpp:136-142 | a wider corridor never gets a larger weight |
| Tuning.ThrottledUpdate | Source/ShipEvacuationSim/AICharacter.cpp:128-148 | the speed cap is the stairs speed exactly when the vertical speed exceeds 20; the weight is the width-to-weight mapping of the 50-unit width estimate at the agent's location and facing, so it lies in [10, 30] and is 30 without a navigation system; the cache is replaced by the overlap result; and nothing else changes |
| Tuning.CorridorExtremesWeight | Source/ShipEvacuationSim/AICharacter.cpp:134-144 | where both sides project onto the mesh, a corridor at most 80 units wide gets weight 30 and one at least 200 units wide gets weight 10 |
| Tuning.OneSidedCorridorWeight | Source/ShipEvacuationSim/AICharacter.cpp:134-144 | where only one side projects onto the mesh, the weight is 10 + 100/6 |
| Tuning.AdjustAvoidanceWeight | Source/ShipEvacuationSim/AICharacter.cpp:197-205 | the weight lies in [10, 15], is the base 10 exactly for a non-negative neighbour count, and is set on both the agent and its movement component |
| Lifecycle.Constructed | Source/ShipEvacuationSim/AICharacter.h:74-85 | a new agent is unshrunk, not resizing, not recovering, has no timers and satisfies the footprint invariant |
| Lifecycle.BeginPlay | Source/ShipEvacuationSim/AICharacter.cpp:19-37 | spawn sets the three looping timers, enables ticking, sets the avoidance radius to 50, caches the capsule size as the defaults and the location as the last sampled one, and changes nothing else |
| Lifecycle.FrameUpdate | Source/ShipEvacuationSim/AICharacter.cpp:79-99 | a frame changes nothing for an agent neither resizing nor recovering; a resizing agent takes one interpolation step toward its targets and stops resizing exactly when both dimensions are within 0.5 of them; a recovering agent moves onto the snap projection when there is one, stays put otherwise, and stops recovering, with walking restored and velocity zeroed, exactly when it lands within 10 units of the target, with movement kept disabled while it is still relocating; the footprint invariant, timers and defaults are kept, and no other field changes |
| Lifecycle.Tick | Source/ShipEvacuationSim/AICharacter.cpp:40-100 | the agent after the frame is the frame update's result; the input is the unit vector along the blend of the heading and twice the avoidance force; it is issued exactly when the avoidance blend is normalisable and the agent is moving or the avoidance force's squared length exceeds 0.01; and an idle agent is moved exactly when that squared length exceeds 0.01 |
| Lifecycle.FinishedMustering | Source/ShipEvacuationSim/AICharacter.cpp:271-291 | ending the run stops ticking, clears every timer, disables movement and releases the controller, and changes nothing else |
| Lifecycle.FinishedMusteringIdempotent | Source/ShipEvacuationSim/AICharacter.cpp:271-291 | ending the run a second time changes nothing |
| Lifecycle.SpawnedAgentWellFormed | Source/ShipEvacuationSim/AICharacter.cpp:19-37 | a freshly spawned agent satisfies the footprint invariant, has exactly the three looping timers and caches its construction size as the defaults |
| Lifecycle.OnMoved | Source/ShipEvacuationSim/Private/AgentMovementComponent.cpp:10-18 | a walking step moves a walking agent to the new location and facing, with the new velocity passed through the horizontal speed clamp (unchanged within the cap, otherwise cut to the cap in the same direction, vertical kept), and nothing else changed; an agent whose movement is disabled is not moved |
| Lifecycle.OnCapsuleReset | Source/ShipEvacuationSim/AICharacter.cpp:113-125 | the one-shot restore timer clears itself as it fires and restores the capsule: unshrunk, resizing toward the defaults, with no stall time, and no other field changes; nothing happens while it is not set |
| Lifecycle.Dispatch | Source/ShipEvacuationSim/AICharacter.cpp:19-37 | each event reaches its handler when it is delivered (a frame while ticking, a walking step while walking, a timer's callback while that timer is set, and the end of the run always); every event keeps the footprint invariant and the cached defaults; the only timer an event can add is the restore timer; an agent with ticking off, no timers and movement disabled ignores everything but the end of the run |
| Lifecycle.MovedAgentResetsStall | Source/ShipEvacuationSim/AICharacter.cpp:150-162 | a walking step of at least 5 units from the last sampled location makes the next stuck check reset the stall time, resample the location and request no shrink |
| Lifecycle.RunPreservesFootprint | Source/ShipEvacuationSim/AICharacter.cpp:80-125 | over any run of events the footprint invariant and the defaults are preserved, and the only timer that can appear is the restore timer |
| Lifecycle.EndedRunIsInert | Source/ShipEvacuationSim/AICharacter.cpp:271-291 | after the run has ended, no sequence of events changes the agent |
| Lifecycle.ShrinkThenRestore | Source/ShipEvacuationSim/AICharacter.cpp:103-125 | a shrinking stuck check followed by the restore timer leaves the agent unshrunk, resizing toward its defaults, with no stall time and the timers it had before |
| CrowdDensity.AreaUsage | Source/ShipEvacuationSim/Private/Volumes/CrowdDensityVolume.cpp:60-68 | the usage is the agents' assumed footprint divided by the floor area, and zero when the floor area is not positive |
| CrowdDensity.AreaUsageMonotone | Source/ShipEvacuationSim/Private/Volumes/CrowdDensityVolume.cpp:60-68 | more agents never lower the usage |
| CrowdDensity.IsSlow | Source/ShipEvacuationSim/Private/Volumes/CrowdDensityVolume.cpp:74-83 | only an occupant with a movement component can be slowed; StoppedOccupantIsSlow and FullSpeedOccupantNotSlow state the speed test's two ends |
| CrowdDensity.StoppedOccupantIsSlow | Source/ShipEvacuationSim/Private/Volumes/CrowdDensityVolume.cpp:74-83 | an occupant with a movement component and zero velocity is slowed for any positive threshold |
| CrowdDensity.FullSpeedOccupantNotSlow | Source/ShipEvacuationSim/Private/Volumes/CrowdDensityVolume.cpp:74-83 | an occupant without a movement component is never slowed, and one walking at its full cap above 1 is not slowed for a threshold of at most 1 |
| CrowdDensity.SlowCount | Source/ShipEvacuationSim/Private/Volumes/CrowdDensityVolume.cpp:70-84 | the slowed count never exceeds the number of occupants |
| CrowdDensity.SlowCountAll | Source/ShipEvacuationSim/Private/Volumes/CrowdDensityVolume.cpp:70-84 | every occupant is counted exactly when every occupant is slowed |
| CrowdDensity.SlowCountNone | Source/ShipEvacuationSim/Private/Volumes/CrowdDensityVolume.cpp:70-84 | no occupant is counted exactly when none is slowed |
| CrowdDensity.SlowCountAdditive | Source/ShipEvacuationSim/Private/Volumes/CrowdDensityVolume.cpp:70-84 | the count over two groups together is the sum of their counts |
| CrowdDensity.SlowRatio | Source/ShipEvacuationSim/Private/Volumes/CrowdDensityVolume.cpp:85 | the ratio lies in [0, 1] and times the agent count gives the slowed count |
| CrowdDensity.UpdateNavModifier | Source/ShipEvacuationSim/Private/Volumes/CrowdDensityVolume.cpp:109-121 | the crowded area class is applied exactly when congested, and nothing else changes |
| CrowdDensity.CheckCongestion | Source/ShipEvacuationSim/Private/Volumes/CrowdDensityVolume.cpp:43-107 | the volume is congested exactly when it is occupied, dense enough and slowed enough; the modifier is updated exactly when that decision changes; an empty volume ends uncongested; whenever the modifier is updated it ends in sync with the decision, and an in-sync modifier stays in sync |
| CrowdDensity.RecheckIsQuiet | Source/ShipEvacuationSim/Private/Volumes/CrowdDensityVolume.cpp:94-106 | a second check over the same occupants changes nothing and updates nothing |
| CrowdDensity.ChecksKeepModifierInSync | Source/ShipEvacuationSim/Private/Volumes/CrowdDensityVolume.cpp:94-121 | over any run of checks the crowded area class is applied exactly while the volume is congested |
| FireSpread.Placed | Source/ShipEvacuationSim/Public/Volumes/FireVolume.h:33-42 | a placed volume has interval 0.2, duration 480 and maximum size 5000 by 5000, keeps its initial extent, and starts at zero elapsed time with the timer running |
| FireSpread.GrowthFactor | Source/ShipEvacuationSim/Private/Volumes/FireVolume.cpp:74-77 | the growth factor lies in [0, 1], is 0 before any time elapses and 1 once the duration has elapsed |
| FireSpread.GrowthFactorMonotone | Source/ShipEvacuationSim/Private/Volumes/FireVolume.cpp:74-77 | the growth factor never decreases with time |
| FireSpread.ExtentAt | Source/ShipEvacuationSim/Private/Volumes/FireVolume.cpp:79-83 | each horizontal extent lies between the initial extent and half the maximum size, and the height is the initial height |
| FireSpread.ExpandVolumeStep | Source/ShipEvacuationSim/Private/Volumes/FireVolume.cpp:64-94 | after the duration a tick only clears the timer; before it, a tick advances the elapsed time by one interval, sets the extent for the new time within its bounds, and scales the smoke cube to match |
| FireSpread.StepNeverShrinks | Source/ShipEvacuationSim/Private/Volumes/FireVolume.cpp:72-83 | a tick never shrinks the horizontal extent of a volume growing outward |
| FireSpread.RunExpansion | Source/ShipEvacuationSim/Private/Volumes/FireVolume.cpp:64-94 | ticking a placed volume until its timer clears ends at full extent, half the maximum size across with the initial height, with the smoke cube to match |

## Left out

- Vector length is a parameter rather than a computed square root, because reals have no
  square root to compute.
- Rounding: floating-point rounding and the 32-bit width of the counts are not modelled. All
  arithmetic is exact over reals and unbounded integers.
- Interpolation rate: the engine's interpolation of the capsule size and of the relocation
  is abstracted as a fraction in [0, 1] of the remaining distance. The capsule's speed is
  `ResizeSpeed` (50, AICharacter.h:81, read at AICharacter.cpp:84-85) and the relocation's is the
  literal 2. The convergence rate and the frame time are not modelled.
- `SetCapsuleSize`: the engine's own adjustment inside it (the half-height kept at least the
  radius) is not modelled.
- Stairs test: the floor-slope test (`IsOnStairs`) is an input of the stuck check, because it
  reads the engine's floor result.
- Downhill nudge: `ApplyDownhillNudge`'s velocity change is not modelled. The stuck check only
  reports that the nudge was applied.
- Overlap queries: `GetNearbyAgents` and the volume's overlap query are inputs. The neighbours'
  locations are a parameter read in the frame.
- `GetNearbyAgentsCount` is not modelled, because nothing in the modelled code calls it.
- Timer scheduling: each looping timer's period is drawn at random at spawn (0.25-0.35 s for
  the throttled update, 2-3.5 s for the stuck check, 3-4 s for the off-surface check,
  AICharacter.cpp:23-26 and 241-242), and so is the tick interval (0.2-0.5 s,
  AICharacter.cpp:13). Neither the periods nor the engine scheduler are modelled: the caller
  chooses the order of events. The crowd volume's and the fire volume's `BeginPlay` timer setup
  is not modelled.
- Locomotion: the engine's path following, avoidance solver and collision are not modelled. A
  walking step (`Lifecycle.OnMoved`) takes the new location, facing and velocity as inputs, and
  only the speed clamp the movement component applies afterwards is modelled.
- Movement component: disabling movement and re-enabling walking are a mode flag. The engine's
  side effects on the movement component are not modelled.
- Controller: `UnPossess` and the behaviour tree are a flag.
- Not part of this model:
  - `RoomAvoidance` and `ResetAvoidance`;
  - logging and `DisplayDebugStats`;
  - the navigation octree updates and the area classes' costs;
  - the constructors' component and mesh setup;
  - the simulation manager and the game instance.
- CrowdDensity.SlowCount: its own contract states only that the count is at most the number
  of occupants. The full meaning is stated by `SlowCountAll`, `SlowCountNone` and
  `SlowCountAdditive`.
- FireSpread.RunExpansion: does not state that the number of ticks is the duration divided by
  the interval, rounded up, plus one. It states only that at least one tick happens and that
  the final state is the full extent.

=== FILE: agent_movement.dfy ===
/**
 * The walking-speed clamp the custom movement component applies after each walking
 * physics step: the horizontal part of the velocity is limited to the maximum speed, and
 * the vertical part is left alone.
 */
module AgentMovement {
  import opened Engine

  /** The horizontal part of a velocity. */
  function Horizontal(v: Vec3): Vec3 {
    Vec3(v.x, v.y, 0.0)
  }

  /**
   * The post-step clamp. `maxSpeed` is the movement component's current maximum speed.
   * Only a horizontal speed strictly above it is clamped, and then only X and Y are
   * written back.
   */
  function HorizontalSpeedClamp(v: Vec3, maxSpeed: real, size: Vec3 -> real): (r: Vec3)
    requires IsSize(size)
    ensures r.z == v.z
    ensures SizeSq(Horizontal(v)) <= maxSpeed * maxSpeed ==> r == v
    ensures SizeSq(Horizontal(r)) <= maxSpeed * maxSpeed
    ensures SizeSq(Horizontal(v)) > maxSpeed * maxSpeed && maxSpeed >= KindaSmallNumber ==>
              SizeSq(Horizontal(r)) == maxSpeed * maxSpeed
    ensures SizeSq(Horizontal(v)) > maxSpeed * maxSpeed && maxSpeed < KindaSmallNumber ==>
              Horizontal(r) == Zero
    ensures SameDirection(Horizontal(r), Horizontal(v))
  {
    var h := Horizontal(v);
    if SizeSq(h) > maxSpeed * maxSpeed then
      var c := ClampToMaxSize(h, maxSpeed, size);
      ClampSameDirection(h, maxSpeed, size);
      assert c.z == 0.0;
      assert Horizontal(Vec3(c.x, c.y, v.z)) == c;
      Vec3(c.x, c.y, v.z)
    else
      ScaleSameDirection(h, 1.0);
      assert Scale(h, 1.0) == h;
      v
  }

  /** Clamping an already clamped velocity changes nothing. */
  lemma ClampIdempotent(v: Vec3, maxSpeed: real, size: Vec3 -> real)
    requires IsSize(size)
    ensures var once := HorizontalSpeedClamp(v, maxSpeed, size);
            HorizontalSpeedClamp(once, maxSpeed, size) == once
  {
  }

  /**
   * The clamp never speeds an agent up: the new horizontal speed is at most the old one,
   * whatever the sign of the limit.
   */
  lemma ClampNeverAccelerates(v: Vec3, maxSpeed: real, size: Vec3 -> real)
    requires IsSize(size)
    ensures SizeSq(Horizontal(HorizontalSpeedClamp(v, maxSpeed, size))) <= SizeSq(Horizontal(v))
  {
    var h := Horizontal(v);
    if SizeSq(h) > maxSpeed * maxSpeed {
      assert SizeSq(Horizontal(HorizontalSpeedClamp(v, maxSpeed, size))) <= maxSpeed * maxSpeed;
    }
  }
}

=== FILE: avoidance.dfy ===
/**
 * The per-frame local avoidance: a force summed over the cached neighbours, clamped to
 * unit length, blended with the current heading, and issued as a movement input.
 *
 * The gate admits neighbours closer than 80 units, but the strength is measured against
 * 20 units, so a neighbour between 20 and 80 units away pulls the agent toward it
 * (`AttractsBeyondFalloff`). This is the behaviour of the code as written.
 */
module Avoidance {
  import opened Engine
  import opened Character

  /** Neighbours at this distance or farther contribute nothing. */
  const RepulsionCutoff: real := 80.0

  /** The distance at which a contribution's strength crosses zero. */
  const StrengthFalloff: real := 20.0

  /** Weight of the repulsion relative to the current heading. */
  const RepulsionWeight: real := 2.0

  /** An idle agent moves only for a repulsion whose squared length exceeds this. */
  const MinRepulsionSq: real := 0.01

  predicate InRepulsionGate(d: real) {
    d < RepulsionCutoff && d > KindaSmallNumber
  }

  /** Signed strength of a neighbour's contribution at distance `d`. */
  function Strength(d: real): (s: real)
    ensures d < StrengthFalloff ==> s > 0.0
    ensures d > StrengthFalloff ==> s < 0.0
    ensures 0.0 <= d ==> s <= 1.0
  {
    (StrengthFalloff - d) / StrengthFalloff
  }

  /** Strength is strictly decreasing in distance. */
  lemma StrengthDecreasing(d1: real, d2: real)
    requires d1 < d2
    ensures Strength(d1) > Strength(d2)
  {
  }

  /**
   * The contribution of a neighbour at `other` to the force on an agent at `self`: zero
   * outside the gate, otherwise the unit vector away from the neighbour scaled by the
   * strength.
   */
  function Contribution(self: Vec3, other: Vec3, size: Vec3 -> real): (r: Vec3)
    requires IsSize(size)
    ensures var d := size(Sub(self, other));
            && (!InRepulsionGate(d) ==> r == Zero)
            && (InRepulsionGate(d) ==>
                  Dot(r, Sub(self, other)) == Strength(d) * d
                  && SizeSq(r) == Strength(d) * Strength(d))
  {
    var toOther := Sub(self, other);
    var d := size(toOther);
    assert IsLengthOf(size, toOther);
    if d < RepulsionCutoff && d > KindaSmallNumber then
      SquareStrictMono(KindaSmallNumber, d);
      var n := SafeNormal(toOther, size);
      assert n == Scale(toOther, 1.0 / d);
      ScaledUnitFacts(toOther, d, Strength(d));
      Scale(n, Strength(d))
    else
      Zero
  }

  /** Inside the gate, the contribution's component along the direction away is strength times distance. */
  lemma ContributionAlong(self: Vec3, other: Vec3, size: Vec3 -> real)
    requires IsSize(size)
    requires InRepulsionGate(size(Sub(self, other)))
    ensures Dot(Contribution(self, other, size), Sub(self, other))
            == Strength(size(Sub(self, other))) * size(Sub(self, other))
  {
  }

  /**
   * A neighbour between the falloff and the cutoff pulls the agent toward itself: the
   * contribution opposes the direction away from the neighbour.
   */
  lemma AttractsBeyondFalloff(self: Vec3, other: Vec3, size: Vec3 -> real)
    requires IsSize(size)
    requires StrengthFalloff < size(Sub(self, other)) < RepulsionCutoff
    ensures Dot(Contribution(self, other, size), Sub(self, other)) < 0.0
  {
    ContributionAlong(self, other, size);
    MulNegPos(Strength(size(Sub(self, other))), size(Sub(self, other)));
  }

  /** A neighbour inside the falloff pushes the agent away from itself. */
  lemma RepelsWithinFalloff(self: Vec3, other: Vec3, size: Vec3 -> real)
    requires IsSize(size)
    requires KindaSmallNumber < size(Sub(self, other)) < StrengthFalloff
    ensures Dot(Contribution(self, other, size), Sub(self, other)) > 0.0
  {
    ContributionAlong(self, other, size);
    MulPos(Strength(size(Sub(self, other))), size(Sub(self, other)));
  }

  /**
   * The summed contributions of the cached neighbours, skipping the agent itself.
   * `locate` gives every actor's location in the current frame.
   */
  function RepulsionSum(selfId: nat, self: Vec3, cache: seq<nat>, locate: nat -> Vec3,
                        size: Vec3 -> real): (r: Vec3)
    requires IsSize(size)
    ensures (forall i :: 0 <= i < |cache| ==> cache[i] == selfId) ==> r == Zero
    ensures |cache| == 1 && cache[0] != selfId ==> r == Contribution(self, locate(cache[0]), size)
    decreases |cache|
  {
    if |cache| == 0 then Zero
    else
      var rest := RepulsionSum(selfId, self, cache[1..], locate, size);
      if cache[0] == selfId then rest
      else Add(Contribution(self, locate(cache[0]), size), rest)
  }

  /** No cached neighbour other than the agent itself is inside the gate. */
  predicate QuietNeighbourhood(selfId: nat, self: Vec3, cache: seq<nat>, locate: nat -> Vec3,
                               size: Vec3 -> real) {
    forall i :: 0 <= i < |cache| ==>
      cache[i] == selfId || !InRepulsionGate(size(Sub(self, locate(cache[i]))))
  }

  /** With no other neighbour inside the gate, the summed force is zero. */
  lemma {:induction false} QuietNeighbourhoodNoForce(selfId: nat, self: Vec3, cache: seq<nat>,
                                                     locate: nat -> Vec3, size: Vec3 -> real)
    requires IsSize(size)
    requires QuietNeighbourhood(selfId, self, cache, locate, size)
    ensures RepulsionSum(selfId, self, cache, locate, size) == Zero
    decreases |cache|
  {
    if |cache| > 0 {
      assert QuietNeighbourhood(selfId, self, cache[1..], locate, size) by {
        forall i | 0 <= i < |cache[1..]|
          ensures cache[1..][i] == selfId
                  || !InRepulsionGate(size(Sub(self, locate(cache[1..][i]))))
        {
          assert cache[1..][i] == cache[i + 1];
        }
      }
      QuietNeighbourhoodNoForce(selfId, self, cache[1..], locate, size);
    }
  }

  /** Summing over two parts of the cache and adding gives the sum over the whole cache. */
  lemma {:induction false} RepulsionSumConcat(selfId: nat, self: Vec3, xs: seq<nat>, ys: seq<nat>,
                                              locate: nat -> Vec3, size: Vec3 -> real)
    requires IsSize(size)
    ensures RepulsionSum(selfId, self, xs + ys, locate, size)
            == Add(RepulsionSum(selfId, self, xs, locate, size),
                   RepulsionSum(selfId, self, ys, locate, size))
    decreases |xs|
  {
    if |xs| == 0 {
      assert xs + ys == ys;
    } else {
      var tail := xs[1..];
      assert (xs + ys)[1..] == tail + ys;
      RepulsionSumConcat(selfId, self, tail, ys, locate, size);
      if xs[0] != selfId {
        AddAssociative(Contribution(self, locate(xs[0]), size),
                       RepulsionSum(selfId, self, tail, locate, size),
                       RepulsionSum(selfId, self, ys, locate, size));
      }
    }
  }

  /** The order in which the overlap query lists the neighbours does not matter. */
  lemma RepulsionSumOrderFree(selfId: nat, self: Vec3, xs: seq<nat>, ys: seq<nat>,
                              locate: nat -> Vec3, size: Vec3 -> real)
    requires IsSize(size)
    ensures RepulsionSum(selfId, self, xs + ys, locate, size)
            == RepulsionSum(selfId, self, ys + xs, locate, size)
  {
    RepulsionSumConcat(selfId, self, xs, ys, locate, size);
    RepulsionSumConcat(selfId, self, ys, xs, locate, size);
  }

  /** The avoidance force on the agent: the neighbours' sum clamped to unit length. */
  function RepulsionForce(a: Agent, locate: nat -> Vec3, size: Vec3 -> real): (r: Vec3)
    requires IsSize(size)
    ensures SizeSq(r) <= 1.0
    ensures SameDirection(r, RepulsionSum(a.id, a.location, a.nearbyAgents, locate, size))
    ensures var sum := RepulsionSum(a.id, a.location, a.nearbyAgents, locate, size);
            (SizeSq(sum) <= 1.0 ==> r == sum) && (SizeSq(sum) > 1.0 ==> SizeSq(r) == 1.0)
  {
    var sum := RepulsionSum(a.id, a.location, a.nearbyAgents, locate, size);
    ClampSameDirection(sum, 1.0, size);
    ClampToMaxSize(sum, 1.0, size)
  }

  /**
   * Whether a frame issues a movement input, for a velocity and a force of at most unit
   * length: the blend must be long enough to normalise, and an idle agent also needs a
   * force whose squared length exceeds 0.01.
   */
  predicate Issues(velocity: Vec3, force: Vec3, size: Vec3 -> real)
    requires IsSize(size)
  {
    SizeSq(Blend(velocity, force, size)) >= SmallNumber
    && (!IsNearlyZero(velocity) || SizeSq(force) > MinRepulsionSq)
  }

  /**
   * The movement input issued this frame, if any: the normalised blend of the current
   * heading and twice the avoidance force. An idle agent is moved only by a force that
   * is not negligible, and always by one that is.
   */
  function MovementInput(a: Agent, locate: nat -> Vec3, size: Vec3 -> real): (r: Option<Vec3>)
    requires IsSize(size)
    ensures r.Some? ==> SizeSq(r.value) == 1.0
    ensures r.Some? ==> SameDirection(r.value, Blend(a.velocity, RepulsionForce(a, locate, size), size))
    ensures r.Some? <==> Issues(a.velocity, RepulsionForce(a, locate, size), size)
    ensures IsNearlyZero(a.velocity) ==>
              (r.Some? <==> SizeSq(RepulsionForce(a, locate, size)) > MinRepulsionSq)
  {
    var force := RepulsionForce(a, locate, size);
    assert ClampToMaxSize(force, 1.0, size) == force;
    IdleIssues(a.velocity, force, size);
    InputFor(a.velocity, force, size)
  }

  /** The current heading: the unit velocity, or zero for an agent that is not moving. */
  function Heading(velocity: Vec3, size: Vec3 -> real): (h: Vec3)
    requires IsSize(size)
    ensures IsNearlyZero(velocity) <==> h == Zero
    ensures !IsNearlyZero(velocity) ==> SizeSq(h) == 1.0 && SameDirection(h, velocity)
  {
    if IsNearlyZero(velocity) then Zero
    else
      NotNearlyZeroIsNormalisable(velocity);
      SafeNormalSameDirection(velocity, size);
      SafeNormal(velocity, size)
  }

  /** The heading plus the weighted avoidance force. */
  function Blend(velocity: Vec3, force: Vec3, size: Vec3 -> real): (b: Vec3)
    requires IsSize(size)
    ensures IsNearlyZero(velocity) ==> b == Scale(force, RepulsionWeight)
    ensures force == Zero ==> b == Heading(velocity, size)
  {
    var heading := Heading(velocity, size);
    var push := Scale(force, RepulsionWeight);
    AddZero(heading);
    AddZero(push);
    assert force == Zero ==> push == Zero;
    Add(heading, push)
  }

  /**
   * The input issued for a given velocity and avoidance force; the force is clamped to
   * unit length once more before it is blended and before the idle gate tests it.
   */
  function InputFor(velocity: Vec3, force: Vec3, size: Vec3 -> real): (r: Option<Vec3>)
    requires IsSize(size)
    ensures r.Some? ==> SizeSq(r.value) == 1.0
    ensures r.Some? ==> SameDirection(r.value, Blend(velocity, ClampToMaxSize(force, 1.0, size), size))
    ensures r.Some? <==> Issues(velocity, ClampToMaxSize(force, 1.0, size), size)
  {
    var clamped := ClampToMaxSize(force, 1.0, size);
    var blend := Blend(velocity, clamped, size);
    var direction := SafeNormal(blend, size);
    NormalisedIsNotNearlyZero(blend, size);
    SafeNormalSameDirection(blend, size);
    if !IsNearlyZero(direction) && (!IsNearlyZero(velocity) || SizeSq(clamped) > MinRepulsionSq) then
      Some(direction)
    else
      None
  }

  /** A safe normal is nearly zero exactly when the vector is too short to normalise. */
  lemma NormalisedIsNotNearlyZero(v: Vec3, size: Vec3 -> real)
    requires IsSize(size)
    ensures IsNearlyZero(SafeNormal(v, size)) <==> SizeSq(v) < SmallNumber
  {
    if SizeSq(v) >= SmallNumber && IsNearlyZero(SafeNormal(v, size)) {
      NearlyZeroIsShort(SafeNormal(v, size));
    }
  }

  /** For an idle agent, the blend of a non-negligible force is long enough to normalise. */
  lemma IdleIssues(velocity: Vec3, force: Vec3, size: Vec3 -> real)
    requires IsSize(size)
    ensures IsNearlyZero(velocity) ==>
              (Issues(velocity, force, size) <==> SizeSq(force) > MinRepulsionSq)
  {
    if IsNearlyZero(velocity) && SizeSq(force) > MinRepulsionSq {
      SizeSqScale(force, RepulsionWeight);
    }
  }

  /** `InputFor` with no avoidance force: the unit velocity when moving, else nothing. */
  lemma InputWithoutForce(v: Vec3, size: Vec3 -> real)
    requires IsSize(size)
    ensures IsNearlyZero(v) ==> InputFor(v, Zero, size) == None
    ensures !IsNearlyZero(v) ==> InputFor(v, Zero, size) == Some(SafeNormal(v, size))
  {
    if IsNearlyZero(v) {
      IdleWithoutForce(v, size);
    } else {
      MovingWithoutForce(v, size);
    }
  }

  /** An idle agent without an avoidance force is given no input. */
  lemma IdleWithoutForce(v: Vec3, size: Vec3 -> real)
    requires IsSize(size) && IsNearlyZero(v)
    ensures InputFor(v, Zero, size) == None
  {
    assert ClampToMaxSize(Zero, 1.0, size) == Zero;
    assert !(SizeSq(Zero) > MinRepulsionSq);
  }

  /** A moving agent without an avoidance force is steered along its unit velocity. */
  lemma MovingWithoutForce(v: Vec3, size: Vec3 -> real)
    requires IsSize(size) && !IsNearlyZero(v)
    ensures InputFor(v, Zero, size) == Some(SafeNormal(v, size))
  {
    var clamped := ClampToMaxSize(Zero, 1.0, size);
    assert clamped == Zero;
    UnitHeading(v, size);
    assert Blend(v, clamped, size) == Heading(v, size);
  }

  /** A moving agent's heading is a unit vector, its own safe normal, and not nearly zero. */
  lemma UnitHeading(v: Vec3, size: Vec3 -> real)
    requires IsSize(size) && !IsNearlyZero(v)
    ensures var h := Heading(v, size);
            h == SafeNormal(v, size) && SafeNormal(h, size) == h && !IsNearlyZero(h)
  {
    var h := Heading(v, size);
    if IsNearlyZero(h) {
      NearlyZeroIsShort(h);
    }
  }

  /** `InputFor` for an idle agent and a force of at most unit length follows the force. */
  lemma IdleInputFollowsForce(v: Vec3, f: Vec3, size: Vec3 -> real)
    requires IsSize(size)
    requires IsNearlyZero(v) && SizeSq(f) <= 1.0
    ensures InputFor(v, f, size).Some? ==> SameDirection(InputFor(v, f, size).value, f)
  {
    if InputFor(v, f, size).Some? {
      assert ClampToMaxSize(f, 1.0, size) == f;
      var b := Blend(v, f, size);
      assert b == Scale(f, RepulsionWeight);
      var u := InputFor(v, f, size).value;
      SafeNormalSameDirection(b, size);
      assert SameDirection(u, b);
      SameDirectionUnscaled(u, f, RepulsionWeight);
    }
  }

  /**
   * Without an avoidance force, a moving agent keeps heading along its velocity and an
   * idle agent receives no input.
   */
  lemma HeadingWithoutRepulsion(a: Agent, locate: nat -> Vec3, size: Vec3 -> real)
    requires IsSize(size)
    ensures RepulsionForce(a, locate, size) == Zero && IsNearlyZero(a.velocity) ==>
              MovementInput(a, locate, size) == None
    ensures RepulsionForce(a, locate, size) == Zero && !IsNearlyZero(a.velocity) ==>
              MovementInput(a, locate, size) == Some(SafeNormal(a.velocity, size))
  {
    InputOfOwnForce(a, locate, size);
    if RepulsionForce(a, locate, size) == Zero {
      if IsNearlyZero(a.velocity) {
        IdleWithoutForce(a.velocity, size);
      } else {
        MovingWithoutForce(a.velocity, size);
      }
    }
  }

  /** A frame's input is `InputFor` applied to the agent's velocity and avoidance force. */
  lemma InputOfOwnForce(a: Agent, locate: nat -> Vec3, size: Vec3 -> real)
    requires IsSize(size)
    ensures MovementInput(a, locate, size) == InputFor(a.velocity, RepulsionForce(a, locate, size), size)
  {
  }

  /** An idle agent that is moved at all is moved along the avoidance force. */
  lemma IdleAgentFollowsRepulsion(a: Agent, locate: nat -> Vec3, size: Vec3 -> real)
    requires IsSize(size)
    requires IsNearlyZero(a.velocity)
    ensures MovementInput(a, locate, size).Some? ==>
              SameDirection(MovementInput(a, locate, size).value, RepulsionForce(a, locate, size))
  {
    IdleInputFollowsForce(a.velocity, RepulsionForce(a, locate, size), size);
  }
}

=== FILE: character.dfy ===
/**
 * The state of one evacuating agent (`AAiCharacter` together with the parts of its
 * capsule and movement components that the controller reads or writes), as an
 * immutable record. Every callback of the controller is a function from this record
 * to a new one.
 */
module Character {
  import opened Engine

  /** The movement component's mode: walking, or disabled (no movement at all). */
  datatype MoveMode = Walking | MoveDisabled

  /** The engine timers the agent owns. */
  datatype Timer = ThrottledUpdateTimer | StuckCheckTimer | NavMeshCheckTimer | CapsuleResetTimer

  datatype Agent = Agent(
    id: nat,
    // Kinematics, owned by the locomotion layer and read here.
    location: Vec3,
    velocity: Vec3,
    rightVector: Vec3,
    // Capsule footprint.
    radius: real,
    halfHeight: real,
    defaultRadius: real,
    defaultHalfHeight: real,
    targetRadius: real,
    targetHalfHeight: real,
    capsuleShrunk: bool,
    resizingCapsule: bool,
    hasMustered: bool,
    // Stuck detection.
    lastLocation: Vec3,
    timeSinceLastMove: real,
    // Off-surface recovery.
    recovering: bool,
    recoveryTarget: Vec3,
    // Movement tuning.
    walkSpeedOnFlat: real,
    walkSpeedOnStairs: real,
    maxWalkSpeed: real,
    avoidanceWeight: real,
    customAvoidanceWeight: real,
    avoidanceConsiderationRadius: real,
    // Identities of the agents found by the last overlap query; their locations are read
    // afresh every frame.
    nearbyAgents: seq<nat>,
    // Lifecycle.
    moveMode: MoveMode,
    tickEnabled: bool,
    possessed: bool,
    timers: set<Timer>)
}

=== FILE: crowd_density.dfy ===
/**
 * The crowd-density volume: a periodic check that marks the volume congested when its
 * floor is crowded enough and enough of the agents inside are slowed, and the navigation
 * modifier that makes a congested volume expensive to path through.
 */
module CrowdDensity {
  import opened Engine

  /** The area class the volume's navigation modifier applies. */
  datatype AreaClass = DefaultArea | CrowdedArea

  /**
   * A character inside the volume, as the check sees it: whether it has a movement
   * component, its velocity, and that component's maximum walking speed.
   */
  datatype Occupant = Occupant(hasMovement: bool, velocity: Vec3, maxWalkSpeed: real)

  /**
   * The volume: its box extent, the three tuning thresholds, whether it is congested, and
   * the area class its modifier currently applies.
   */
  datatype CrowdVolume = CrowdVolume(
    extent: Vec3,
    areaOccupancyThreshold: real,
    speedSlowdownThreshold: real,
    percentSlowedAgentsThreshold: real,
    congested: bool,
    areaClass: AreaClass)

  /** The engine's single-precision value of pi. */
  const Pi: real := 3.1415926535897932

  /** The footprint radius assumed for every agent. */
  const AssumedCapsuleRadius: real := 20.0

  /** An agent whose maximum speed is at most this counts as slowed outright. */
  const MinMeaningfulMaxSpeed: real := 1.0

  /** The volume as placed: the default extent and thresholds, not congested. */
  const InitialVolume: CrowdVolume :=
    CrowdVolume(Vec3(200.0, 200.0, 110.0), 0.8, 0.8, 0.5, false, DefaultArea)

  /** The floor area one agent is assumed to occupy. */
  function CapsuleArea(): real {
    Pi * (AssumedCapsuleRadius * AssumedCapsuleRadius)
  }

  /**
   * The share of the volume's floor the agents occupy; zero for a volume whose floor area
   * is not positive, so the division is always defined.
   */
  function AreaUsage(count: nat, extent: Vec3): (u: real)
    ensures (extent.x * 2.0) * (extent.y * 2.0) <= 0.0 ==> u == 0.0
    ensures u >= 0.0
    ensures (extent.x * 2.0) * (extent.y * 2.0) > 0.0 ==>
              u * ((extent.x * 2.0) * (extent.y * 2.0)) == count as real * CapsuleArea()
  {
    var total := (extent.x * 2.0) * (extent.y * 2.0);
    if total > 0.0 then
      MulNonneg(count as real, CapsuleArea());
      (count as real * CapsuleArea()) / total
    else 0.0
  }

  /** Occupying more agents never lowers the usage. */
  lemma AreaUsageMonotone(c1: nat, c2: nat, extent: Vec3)
    requires c1 <= c2
    ensures AreaUsage(c1, extent) <= AreaUsage(c2, extent)
  {
    var total := (extent.x * 2.0) * (extent.y * 2.0);
    if total > 0.0 {
      MulNonneg((c2 - c1) as real, CapsuleArea());
      assert c2 as real * CapsuleArea() - c1 as real * CapsuleArea()
             == (c2 - c1) as real * CapsuleArea();
    }
  }

  /**
   * Whether an occupant counts as slowed: it must have a movement component, and then
   * either its maximum speed is at most 1 or its speed is below the threshold share of it.
   */
  predicate IsSlow(o: Occupant, threshold: real, size: Vec3 -> real)
    ensures IsSlow(o, threshold, size) ==> o.hasMovement
  {
    o.hasMovement
    && (o.maxWalkSpeed <= MinMeaningfulMaxSpeed || size(o.velocity) / o.maxWalkSpeed < threshold)
  }

  /**
   * A stopped occupant with a movement component is slowed for any positive threshold,
   * however fast it may walk.
   */
  lemma StoppedOccupantIsSlow(o: Occupant, threshold: real, size: Vec3 -> real)
    requires IsSize(size)
    requires o.hasMovement && o.velocity == Zero && threshold > 0.0
    ensures IsSlow(o, threshold, size)
  {
    ZeroLength(size);
    if o.maxWalkSpeed > MinMeaningfulMaxSpeed {
      assert size(o.velocity) / o.maxWalkSpeed == 0.0;
    }
  }

  /**
   * An occupant that walks at its full maximum speed is not slowed when the maximum is
   * meaningful and the threshold is at most one; an occupant without a movement component
   * is never slowed.
   */
  lemma FullSpeedOccupantNotSlow(o: Occupant, threshold: real, size: Vec3 -> real)
    requires IsSize(size)
    requires threshold <= 1.0
    ensures !o.hasMovement ==> !IsSlow(o, threshold, size)
    ensures o.maxWalkSpeed > MinMeaningfulMaxSpeed && size(o.velocity) == o.maxWalkSpeed ==>
              !IsSlow(o, threshold, size)
  {
    if o.maxWalkSpeed > MinMeaningfulMaxSpeed && size(o.velocity) == o.maxWalkSpeed {
      assert size(o.velocity) / o.maxWalkSpeed == 1.0;
    }
  }

  /** The number of slowed occupants. */
  function SlowCount(occ: seq<Occupant>, threshold: real, size: Vec3 -> real): (n: nat)
    ensures n <= |occ|
    decreases |occ|
  {
    if |occ| == 0 then 0
    else
      var rest := SlowCount(occ[1..], threshold, size);
      if IsSlow(occ[0], threshold, size) then rest + 1 else rest
  }

  /** Every occupant is counted exactly when every occupant is slowed. */
  lemma {:induction false} SlowCountAll(occ: seq<Occupant>, threshold: real, size: Vec3 -> real)
    ensures SlowCount(occ, threshold, size) == |occ|
            <==> forall i :: 0 <= i < |occ| ==> IsSlow(occ[i], threshold, size)
    decreases |occ|
  {
    if |occ| > 0 {
      SlowCountAll(occ[1..], threshold, size);
      assert forall i :: 1 <= i < |occ| ==> occ[i] == occ[1..][i - 1];
    }
  }

  /** No occupant is counted exactly when none is slowed. */
  lemma {:induction false} SlowCountNone(occ: seq<Occupant>, threshold: real, size: Vec3 -> real)
    ensures SlowCount(occ, threshold, size) == 0
            <==> forall i :: 0 <= i < |occ| ==> !IsSlow(occ[i], threshold, size)
    decreases |occ|
  {
    if |occ| > 0 {
      SlowCountNone(occ[1..], threshold, size);
      assert forall i :: 1 <= i < |occ| ==> occ[i] == occ[1..][i - 1];
    }
  }

  /** Counting over two groups separately and adding gives the count over both. */
  lemma {:induction false} SlowCountAdditive(xs: seq<Occupant>, ys: seq<Occupant>,
                                             threshold: real, size: Vec3 -> real)
    ensures SlowCount(xs + ys, threshold, size)
            == SlowCount(xs, threshold, size) + SlowCount(ys, threshold, size)
    decreases |xs|
  {
    if |xs| > 0 {
      assert (xs + ys)[1..] == xs[1..] + ys;
      SlowCountAdditive(xs[1..], ys, threshold, size);
    } else {
      assert xs + ys == ys;
    }
  }

  /** The share of occupants that are slowed, for a non-empty volume. */
  function SlowRatio(occ: seq<Occupant>, threshold: real, size: Vec3 -> real): (q: real)
    requires |occ| > 0
    ensures 0.0 <= q <= 1.0
    ensures q * |occ| as real == SlowCount(occ, threshold, size) as real
  {
    Fraction(SlowCount(occ, threshold, size), |occ|)
  }

  /** `part` out of `whole`, as a real ratio. */
  function Fraction(part: nat, whole: nat): (q: real)
    requires 0 < whole && part <= whole
    ensures 0.0 <= q <= 1.0
    ensures q * whole as real == part as real
  {
    FractionBounds(part as real, whole as real);
    part as real / whole as real
  }

  lemma FractionBounds(n: real, d: real)
    requires 0.0 <= n <= d && d > 0.0
    ensures 0.0 <= n / d <= 1.0
    ensures n / d * d == n
  {
    var q := n / d;
    assert q * d == n;
    if q < 0.0 {
      MulPos(-q, d);
    }
    if q > 1.0 {
      MulPos(q - 1.0, d);
    }
  }

  /** The congestion decision: occupied, dense enough, and slowed enough. */
  predicate NowCongested(v: CrowdVolume, occ: seq<Occupant>, size: Vec3 -> real) {
    |occ| > 0
    && AreaUsage(|occ|, v.extent) >= v.areaOccupancyThreshold
    && SlowRatio(occ, v.speedSlowdownThreshold, size) >= v.percentSlowedAgentsThreshold
  }

  /** The modifier applies the crowded class exactly when the volume is congested. */
  predicate ModifierInSync(v: CrowdVolume) {
    v.areaClass == CrowdedArea <==> v.congested
  }

  /** Apply the crowded class for a congested volume and the default class otherwise. */
  function UpdateNavModifier(v: CrowdVolume, congested: bool): (r: CrowdVolume)
    ensures r.areaClass == CrowdedArea <==> congested
    ensures r.(areaClass := v.areaClass) == v
  {
    v.(areaClass := if congested then CrowdedArea else DefaultArea)
  }

  /** The result of a check: the volume, and whether the modifier was updated. */
  datatype CheckOutcome = CheckOutcome(volume: CrowdVolume, modifierUpdated: bool)

  /**
   * One congestion check over the characters overlapping the volume. An empty volume is
   * marked uncongested (with a modifier update only if it was congested); otherwise the
   * congested flag takes the decision, and the modifier is updated only when it changes.
   */
  function CheckCongestion(v: CrowdVolume, occ: seq<Occupant>, size: Vec3 -> real): (o: CheckOutcome)
    ensures o.volume.congested == NowCongested(v, occ, size)
    ensures o.modifierUpdated <==> NowCongested(v, occ, size) != v.congested
    ensures !o.modifierUpdated ==> o.volume == v
    ensures o.modifierUpdated ==> o.volume.(congested := v.congested, areaClass := v.areaClass) == v
    ensures ModifierInSync(v) ==> ModifierInSync(o.volume)
    ensures o.modifierUpdated ==> ModifierInSync(o.volume)
    ensures |occ| == 0 ==> !o.volume.congested && (o.modifierUpdated <==> v.congested)
  {
    if |occ| == 0 then
      if v.congested then CheckOutcome(UpdateNavModifier(v.(congested := false), false), true)
      else CheckOutcome(v, false)
    else
      var usage := AreaUsage(|occ|, v.extent);
      var ratio := SlowRatio(occ, v.speedSlowdownThreshold, size);
      var now := usage >= v.areaOccupancyThreshold && ratio >= v.percentSlowedAgentsThreshold;
      if now != v.congested then CheckOutcome(UpdateNavModifier(v.(congested := now), now), true)
      else CheckOutcome(v, false)
  }

  /** A second check over the same occupants updates nothing and changes nothing. */
  lemma RecheckIsQuiet(v: CrowdVolume, occ: seq<Occupant>, size: Vec3 -> real)
    ensures var first := CheckCongestion(v, occ, size).volume;
            CheckCongestion(first, occ, size) == CheckOutcome(first, false)
  {
    var first := CheckCongestion(v, occ, size).volume;
    assert first.extent == v.extent;
    assert first.speedSlowdownThreshold == v.speedSlowdownThreshold;
    assert NowCongested(first, occ, size) == NowCongested(v, occ, size);
  }

  /**
   * The placed volume starts in sync, and every check keeps it in sync: the crowded class
   * is applied exactly while the volume is congested.
   */
  lemma {:induction false} ChecksKeepModifierInSync(v: CrowdVolume, rounds: seq<seq<Occupant>>,
                                                   size: Vec3 -> real)
    requires ModifierInSync(v)
    ensures ModifierInSync(RunChecks(v, rounds, size))
    decreases |rounds|
  {
    if |rounds| > 0 {
      ChecksKeepModifierInSync(CheckCongestion(v, rounds[0], size).volume, rounds[1..], size);
    }
  }

  /** The volume after a run of checks, one per round of overlapping characters. */
  function RunChecks(v: CrowdVolume, rounds: seq<seq<Occupant>>, size: Vec3 -> real): CrowdVolume
    decreases |rounds|
  {
    if |rounds| == 0 then v
    else RunChecks(CheckCongestion(v, rounds[0], size).volume, rounds[1..], size)
  }

  lemma InitialVolumeInSync()
    ensures ModifierInSync(InitialVolume)
    ensures !InitialVolume.congested
  {
  }
}

=== FILE: engine.dfy ===
/**
 * The engine primitives the evacuation controller is written against: an optional
 * value, 3-vectors of reals, the scalar helpers of the engine's math library, and the
 * navigation system, which is an oracle that projects a point onto the walkable surface.
 *
 * Floating point is modelled by `real`. The square root behind a vector's length is not
 * available as a Dafny function, so every operation that needs a length takes the
 * engine's length function `size` as a parameter and requires `IsSize(size)`: it returns
 * the non-negative square root of the squared length.
 */
module Engine {

  datatype Option<T> = None | Some(value: T)

  datatype Vec3 = Vec3(x: real, y: real, z: real)

  const Zero: Vec3 := Vec3(0.0, 0.0, 0.0)

  /** Tolerance of a safe normalisation (the engine's SMALL_NUMBER). */
  const SmallNumber: real := 0.00000001

  /** Tolerance of "nearly zero" tests and of size clamps (the engine's KINDA_SMALL_NUMBER). */
  const KindaSmallNumber: real := 0.0001

  function Add(a: Vec3, b: Vec3): Vec3 {
    Vec3(a.x + b.x, a.y + b.y, a.z + b.z)
  }

  /** Zero is the identity of addition on either side. */
  lemma AddZero(v: Vec3)
    ensures Add(v, Zero) == v && Add(Zero, v) == v
  {
  }

  lemma AddAssociative(a: Vec3, b: Vec3, c: Vec3)
    ensures Add(a, Add(b, c)) == Add(Add(a, b), c)
  {
  }

  function Sub(a: Vec3, b: Vec3): Vec3 {
    Vec3(a.x - b.x, a.y - b.y, a.z - b.z)
  }

  function Scale(v: Vec3, k: real): Vec3 {
    Vec3(v.x * k, v.y * k, v.z * k)
  }

  function Dot(a: Vec3, b: Vec3): real {
    a.x * b.x + a.y * b.y + a.z * b.z
  }

  function Cross(a: Vec3, b: Vec3): Vec3 {
    Vec3(a.y * b.z - a.z * b.y, a.z * b.x - a.x * b.z, a.x * b.y - a.y * b.x)
  }

  lemma MulNonneg(a: real, b: real)
    requires 0.0 <= a && 0.0 <= b
    ensures 0.0 <= a * b
  {
  }

  lemma MulPos(a: real, b: real)
    requires 0.0 < a && 0.0 < b
    ensures 0.0 < a * b
  {
  }

  lemma MulNegPos(a: real, b: real)
    requires a < 0.0 < b
    ensures a * b < 0.0
  {
    MulPos(-a, b);
  }

  lemma SquareNonneg(a: real)
    ensures 0.0 <= a * a
  {
    if a < 0.0 { MulNonneg(-a, -a); } else { MulNonneg(a, a); }
  }

  /** The non-negative square root of one is one. */
  lemma UnitRoot(s: real)
    requires 0.0 <= s && s * s == 1.0
    ensures s == 1.0
  {
    if s < 1.0 {
      MulNonneg(s, 1.0 - s);
    } else if s > 1.0 {
      MulNonneg(s - 1.0, s);
    }
  }

  /** Squaring is strictly increasing on the non-negative reals. */
  lemma SquareStrictMono(a: real, b: real)
    requires 0.0 <= a < b
    ensures a * a < b * b
  {
    MulNonneg(b - a, a);
    assert (b - a) * b > 0.0;
  }

  /** A square is at most `m * m` when the base lies in `[-m, m]`. */
  lemma SquareBounded(a: real, m: real)
    requires -m <= a <= m
    ensures a * a <= m * m
  {
    MulNonneg(m - a, m + a);
  }

  function SizeSq(v: Vec3): (r: real)
    ensures r >= 0.0
  {
    SquareNonneg(v.x);
    SquareNonneg(v.y);
    SquareNonneg(v.z);
    v.x * v.x + v.y * v.y + v.z * v.z
  }

  function DistSq(a: Vec3, b: Vec3): real {
    SizeSq(Sub(a, b))
  }

  /** `size(v)` is the length of `v`: the non-negative root of its squared length. */
  predicate IsLengthOf(size: Vec3 -> real, v: Vec3) {
    0.0 <= size(v) && size(v) * size(v) == SizeSq(v)
  }

  /** `size` is the engine's vector length. */
  ghost predicate IsSize(size: Vec3 -> real) {
    forall v :: IsLengthOf(size, v)
  }

  /** The zero vector has length zero. */
  lemma ZeroLength(size: Vec3 -> real)
    requires IsSize(size)
    ensures size(Zero) == 0.0
  {
    var s := size(Zero);
    assert IsLengthOf(size, Zero);
    assert SizeSq(Zero) == 0.0;
    if s > 0.0 {
      SquareStrictMono(0.0, s);
    }
  }

  /** `u` points the same way as `v` (or is zero): parallel, and not opposed. */
  predicate SameDirection(u: Vec3, v: Vec3) {
    Cross(u, v) == Zero && Dot(u, v) >= 0.0
  }

  lemma SizeSqScale(v: Vec3, k: real)
    ensures SizeSq(Scale(v, k)) == k * k * SizeSq(v)
  {
    calc {
      SizeSq(Scale(v, k));
      (v.x * k) * (v.x * k) + (v.y * k) * (v.y * k) + (v.z * k) * (v.z * k);
      k * k * (v.x * v.x + v.y * v.y + v.z * v.z);
    }
  }

  lemma DotScaleSelf(v: Vec3, k: real)
    ensures Dot(Scale(v, k), v) == k * SizeSq(v)
  {
    calc {
      Dot(Scale(v, k), v);
      (v.x * k) * v.x + (v.y * k) * v.y + (v.z * k) * v.z;
      k * (v.x * v.x + v.y * v.y + v.z * v.z);
    }
  }

  lemma ScaleSameDirection(v: Vec3, k: real)
    requires k >= 0.0
    ensures SameDirection(Scale(v, k), v)
  {
    DotScaleSelf(v, k);
    MulNonneg(k, SizeSq(v));
    assert Cross(Scale(v, k), v) == Zero;
  }

  /** Direction against a positive multiple of `v` is direction against `v`. */
  lemma SameDirectionUnscaled(u: Vec3, v: Vec3, k: real)
    requires k > 0.0
    requires SameDirection(u, Scale(v, k))
    ensures SameDirection(u, v)
  {
    var c := Cross(u, v);
    assert Cross(u, Scale(v, k)) == Scale(c, k);
    assert c.x * k == 0.0 && c.y * k == 0.0 && c.z * k == 0.0;
    assert Dot(u, Scale(v, k)) == k * Dot(u, v);
    if Dot(u, v) < 0.0 {
      MulPos(k, -Dot(u, v));
    }
  }

  /** Scaling a vector of length `s` by `m / s` yields squared length `m * m`. */
  lemma SizeSqRescaled(v: Vec3, s: real, m: real)
    requires s > 0.0 && s * s == SizeSq(v)
    ensures SizeSq(Scale(v, m / s)) == m * m
  {
    SizeSqScale(v, m / s);
    calc {
      (m / s) * (m / s) * SizeSq(v);
      (m / s) * (m / s) * (s * s);
      ((m / s) * s) * ((m / s) * s);
      m * m;
    }
  }

  /**
   * A vector of length `d` divided by `d` and scaled by `s` has squared length `s * s`
   * and projects `s * d` onto the original.
   */
  lemma ScaledUnitFacts(v: Vec3, d: real, s: real)
    requires d > 0.0 && d * d == SizeSq(v)
    ensures SizeSq(Scale(Scale(v, 1.0 / d), s)) == s * s
    ensures Dot(Scale(Scale(v, 1.0 / d), s), v) == s * d
  {
    var n := Scale(v, 1.0 / d);
    SizeSqRescaled(v, d, 1.0);
    SizeSqScale(n, s);
    var k := s / d;
    assert (1.0 / d) * s == k;
    assert Scale(n, s) == Scale(v, k) by {
      assert v.x * (1.0 / d) * s == v.x * ((1.0 / d) * s);
      assert v.y * (1.0 / d) * s == v.y * ((1.0 / d) * s);
      assert v.z * (1.0 / d) * s == v.z * ((1.0 / d) * s);
    }
    DotScaleSelf(v, k);
    assert k * (d * d) == s * d;
  }

  /** The engine's safe normalisation: unit length, or zero for a (nearly) zero vector. */
  function SafeNormal(v: Vec3, size: Vec3 -> real): (r: Vec3)
    requires IsSize(size)
    ensures SizeSq(v) < SmallNumber ==> r == Zero
    ensures SizeSq(v) == 1.0 ==> r == v
    ensures SizeSq(v) >= SmallNumber ==> SizeSq(r) == 1.0 && r == Scale(v, 1.0 / size(v))
  {
    assert IsLengthOf(size, v);
    if SizeSq(v) == 1.0 then
      UnitRoot(size(v));
      assert Scale(v, 1.0) == v;
      v
    else if SizeSq(v) < SmallNumber then
      Zero
    else
      var s := size(v);
      assert s > 0.0;
      SizeSqRescaled(v, s, 1.0);
      Scale(v, 1.0 / s)
  }

  /** A safe normal points the way of the vector it normalises. */
  lemma SafeNormalSameDirection(v: Vec3, size: Vec3 -> real)
    requires IsSize(size)
    ensures SameDirection(SafeNormal(v, size), v)
  {
    assert IsLengthOf(size, v);
    if SizeSq(v) < SmallNumber {
      ScaleSameDirection(v, 0.0);
      assert Scale(v, 0.0) == Zero;
    } else {
      ScaleSameDirection(v, 1.0 / size(v));
    }
  }

  /** The engine's clamp of a vector's length to at most `maxSize`. */
  function ClampToMaxSize(v: Vec3, maxSize: real, size: Vec3 -> real): (r: Vec3)
    requires IsSize(size)
    ensures SizeSq(r) <= maxSize * maxSize
    ensures maxSize < KindaSmallNumber ==> r == Zero
    ensures maxSize >= KindaSmallNumber && SizeSq(v) <= maxSize * maxSize ==> r == v
    ensures maxSize >= KindaSmallNumber && SizeSq(v) > maxSize * maxSize ==>
              SizeSq(r) == maxSize * maxSize
    ensures r == Zero || r == v || (maxSize >= KindaSmallNumber && r == Scale(v, maxSize / size(v)))
  {
    assert IsLengthOf(size, v);
    if maxSize < KindaSmallNumber then
      SquareNonneg(maxSize);
      Zero
    else if SizeSq(v) > maxSize * maxSize then
      var s := size(v);
      assert s > 0.0;
      SizeSqRescaled(v, s, maxSize);
      Scale(v, maxSize / s)
    else
      v
  }

  /** A clamped vector points the way of the original. */
  lemma ClampSameDirection(v: Vec3, maxSize: real, size: Vec3 -> real)
    requires IsSize(size)
    ensures SameDirection(ClampToMaxSize(v, maxSize, size), v)
  {
    var r := ClampToMaxSize(v, maxSize, size);
    assert IsLengthOf(size, v);
    if r == Zero {
      ScaleSameDirection(v, 0.0);
      assert Scale(v, 0.0) == Zero;
    } else if r == v {
      ScaleSameDirection(v, 1.0);
      assert Scale(v, 1.0) == v;
    } else {
      MulNonneg(maxSize, 1.0 / size(v));
      ScaleSameDirection(v, maxSize / size(v));
    }
  }

  function Abs(x: real): (r: real)
    ensures r >= 0.0 && (r == x || r == -x)
  {
    if x < 0.0 then -x else x
  }

  /** Every component is within KINDA_SMALL_NUMBER of zero. */
  predicate IsNearlyZero(v: Vec3) {
    Abs(v.x) <= KindaSmallNumber && Abs(v.y) <= KindaSmallNumber && Abs(v.z) <= KindaSmallNumber
  }

  lemma NearlyZeroIsShort(v: Vec3)
    requires IsNearlyZero(v)
    ensures SizeSq(v) < 1.0
  {
    SquareBounded(v.x, KindaSmallNumber);
    SquareBounded(v.y, KindaSmallNumber);
    SquareBounded(v.z, KindaSmallNumber);
  }

  /** A vector that is not nearly zero is long enough to be normalised. */
  lemma NotNearlyZeroIsNormalisable(v: Vec3)
    requires !IsNearlyZero(v)
    ensures SizeSq(v) >= SmallNumber
  {
    SquareNonneg(v.x);
    SquareNonneg(v.y);
    SquareNonneg(v.z);
    if Abs(v.x) > KindaSmallNumber {
      SquareStrictMono(KindaSmallNumber, Abs(v.x));
      assert Abs(v.x) * Abs(v.x) == v.x * v.x;
    } else if Abs(v.y) > KindaSmallNumber {
      SquareStrictMono(KindaSmallNumber, Abs(v.y));
      assert Abs(v.y) * Abs(v.y) == v.y * v.y;
    } else {
      SquareStrictMono(KindaSmallNumber, Abs(v.z));
      assert Abs(v.z) * Abs(v.z) == v.z * v.z;
    }
  }

  predicate IsNearlyEqual(a: real, b: real, tolerance: real) {
    Abs(a - b) <= tolerance
  }

  /** The engine's clamp; with `lo <= hi` the result lies in `[lo, hi]`. */
  function Clamp(x: real, lo: real, hi: real): (r: real)
    ensures lo <= hi ==> lo <= r <= hi
    ensures lo <= x <= hi ==> r == x
  {
    if x < lo then lo else if x < hi then x else hi
  }

  function Lerp(a: real, b: real, t: real): real {
    a + t * (b - a)
  }

  predicate Between(x: real, a: real, b: real) {
    (a <= x <= b) || (b <= x <= a)
  }

  lemma LerpBetween(a: real, b: real, t: real)
    requires 0.0 <= t <= 1.0
    ensures Between(Lerp(a, b, t), a, b)
    ensures Abs(b - Lerp(a, b, t)) <= Abs(b - a)
  {
    var l := Lerp(a, b, t);
    assert b - l == (1.0 - t) * (b - a);
    if a <= b {
      MulNonneg(t, b - a);
      MulNonneg(1.0 - t, b - a);
      assert a <= l <= b;
      assert Abs(b - l) == b - l;
    } else {
      MulNonneg(t, a - b);
      MulNonneg(1.0 - t, a - b);
      assert b <= l <= a;
      assert Abs(b - l) == l - b;
    }
  }

  /** Moving further along a non-decreasing interpolation never goes down. */
  lemma LerpMonotone(a: real, b: real, t1: real, t2: real)
    requires a <= b && t1 <= t2
    ensures Lerp(a, b, t1) <= Lerp(a, b, t2)
  {
    MulNonneg(t2 - t1, b - a);
    assert Lerp(a, b, t2) - Lerp(a, b, t1) == (t2 - t1) * (b - a);
  }

  /**
   * The engine's interpolation of a scalar toward a target. Its internals (speed, frame
   * time, snapping) are abstracted into `fraction`, the share of the remaining distance
   * covered this frame; every value between current and target is some fraction.
   */
  function InterpToward(current: real, target: real, fraction: real): (r: real)
    requires 0.0 <= fraction <= 1.0
    ensures Between(r, current, target)
    ensures Abs(target - r) <= Abs(target - current)
  {
    LerpBetween(current, target, fraction);
    Lerp(current, target, fraction)
  }

  /** The engine's interpolation of a point toward a target, abstracted as for scalars. */
  function VInterpToward(current: Vec3, target: Vec3, fraction: real): (r: Vec3)
    requires 0.0 <= fraction <= 1.0
    ensures Sub(target, r) == Scale(Sub(target, current), 1.0 - fraction)
  {
    Vec3(Lerp(current.x, target.x, fraction),
         Lerp(current.y, target.y, fraction),
         Lerp(current.z, target.z, fraction))
  }

  /**
   * The engine's clamped range map: the position of `value` in `[inA, inB]` (either
   * orientation), clamped to `[0, 1]` and carried onto `[outA, outB]`.
   */
  function MappedRangeClamped(inA: real, inB: real, outA: real, outB: real, value: real): (r: real)
    ensures Between(r, outA, outB)
  {
    var divisor := inB - inA;
    var pct := if Abs(divisor) <= SmallNumber then (if value >= inB then 1.0 else 0.0)
               else (value - inA) / divisor;
    var t := Clamp(pct, 0.0, 1.0);
    LerpBetween(outA, outB, t);
    Lerp(outA, outB, t)
  }

  /** The extent of a projection query: the navigation data's default, or a cube. */
  datatype QueryExtent = DefaultExtent | Cube(halfSize: real)

  /**
   * The navigation system, when one exists: `project(p, e)` is the nearest walkable point
   * within extent `e` of `p`, or None.
   */
  datatype Nav = NoNav | NavSystem(project: (Vec3, QueryExtent) -> Option<Vec3>)
}

=== FILE: fire_volume.dfy ===
/**
 * The fire volume's growth: on every tick of its expansion timer the elapsed time
 * advances by the update interval, and the horizontal extent follows a quartic ease-in
 * from the initial extent to half the maximum size. Once the duration has elapsed, the
 * next tick clears the timer.
 */
module FireSpread {
  import opened Engine

  datatype FireVolume = FireVolume(
    initialExtent: Vec3,
    maxSizeX: real,
    maxSizeY: real,
    updateInterval: real,
    expansionDuration: real,
    elapsed: real,
    extent: Vec3,
    visualScale: Vec3,
    timerActive: bool)

  /** The edge length of the engine's unit cube mesh that shows the smoke. */
  const CubeMeshSize: real := 100.0

  /** The header's editor lower bound on the update interval and the duration. */
  const MinConfigured: real := 0.1

  /** The interval and duration are at least the header's editor minimum. */
  predicate Configured(f: FireVolume) {
    f.updateInterval >= MinConfigured && f.expansionDuration >= MinConfigured
  }

  /** A volume as placed: default settings, the box's initial extent, timer running. */
  function Placed(initialExtent: Vec3): (f: FireVolume)
    ensures Configured(f) && f.timerActive && f.elapsed == 0.0 && f.extent == initialExtent
    ensures f.updateInterval == 0.2 && f.expansionDuration == 480.0
    ensures f.maxSizeX == 5000.0 && f.maxSizeY == 5000.0
    ensures f.initialExtent == initialExtent
  {
    FireVolume(initialExtent, 5000.0, 5000.0, 0.2, 480.0, 0.0, initialExtent,
               Vec3(0.5, 0.5, 0.5), true)
  }

  function Pow4(x: real): real {
    x * x * (x * x)
  }

  lemma Pow4UnitInterval(x: real)
    requires 0.0 <= x <= 1.0
    ensures 0.0 <= Pow4(x) <= 1.0
  {
    MulNonneg(x, x);
    assert x * x <= 1.0 by { MulNonneg(x, 1.0 - x); }
    MulNonneg(x * x, x * x);
    MulNonneg(x * x, 1.0 - x * x);
  }

  lemma Pow4Monotone(x: real, y: real)
    requires 0.0 <= x <= y
    ensures Pow4(x) <= Pow4(y)
  {
    MulNonneg(x, x);
    MulNonneg(y - x, y + x);
    assert x * x <= y * y;
    MulNonneg(y * y - x * x, y * y + x * x);
  }

  /** The growth factor after `elapsed` seconds: the clamped progress to the fourth power. */
  function GrowthFactor(elapsed: real, duration: real): (g: real)
    requires duration > 0.0
    ensures 0.0 <= g <= 1.0
    ensures elapsed <= 0.0 ==> g == 0.0
    ensures elapsed >= duration ==> g == 1.0
  {
    var alpha := Clamp(elapsed / duration, 0.0, 1.0);
    Pow4UnitInterval(alpha);
    alpha * alpha * (alpha * alpha)
  }

  /** Later never grows less. */
  lemma GrowthFactorMonotone(e1: real, e2: real, duration: real)
    requires duration > 0.0
    requires e1 <= e2
    ensures GrowthFactor(e1, duration) <= GrowthFactor(e2, duration)
  {
    var a1 := Clamp(e1 / duration, 0.0, 1.0);
    var a2 := Clamp(e2 / duration, 0.0, 1.0);
    assert e1 / duration <= e2 / duration;
    Pow4Monotone(a1, a2);
  }

  /** The extent after `elapsed` seconds. */
  function ExtentAt(f: FireVolume, elapsed: real): (e: Vec3)
    requires f.expansionDuration > 0.0
    ensures Between(e.x, f.initialExtent.x, f.maxSizeX / 2.0)
    ensures Between(e.y, f.initialExtent.y, f.maxSizeY / 2.0)
    ensures e.z == f.initialExtent.z
  {
    var g := GrowthFactor(elapsed, f.expansionDuration);
    LerpBetween(f.initialExtent.x, f.maxSizeX / 2.0, g);
    LerpBetween(f.initialExtent.y, f.maxSizeY / 2.0, g);
    Vec3(Lerp(f.initialExtent.x, f.maxSizeX / 2.0, g),
         Lerp(f.initialExtent.y, f.maxSizeY / 2.0, g),
         f.initialExtent.z)
  }

  /** The full extent: half the maximum size across, the initial height. */
  function FullExtent(f: FireVolume): Vec3 {
    Vec3(f.maxSizeX / 2.0, f.maxSizeY / 2.0, f.initialExtent.z)
  }

  /** The scale of the smoke cube that shows a box of the given extent. */
  function VisualScaleFor(extent: Vec3): Vec3 {
    Vec3(extent.x * 2.0 / CubeMeshSize, extent.y * 2.0 / CubeMeshSize,
         extent.z * 2.0 / CubeMeshSize)
  }

  /** The extent and the smoke scale agree with the elapsed time. */
  predicate InStep(f: FireVolume)
    requires f.expansionDuration > 0.0
  {
    f.extent == ExtentAt(f, f.elapsed)
  }

  /**
   * One tick of the expansion timer. Once the duration has elapsed the timer is cleared
   * and nothing else changes; otherwise the elapsed time advances by one interval and the
   * extent and the smoke scale follow it.
   */
  function ExpandVolumeStep(f: FireVolume): (r: FireVolume)
    requires f.expansionDuration > 0.0
    ensures r.expansionDuration == f.expansionDuration
    ensures f.elapsed >= f.expansionDuration ==> r == f.(timerActive := false)
    ensures f.elapsed < f.expansionDuration ==>
              r.elapsed == f.elapsed + f.updateInterval
              && Between(r.extent.x, f.initialExtent.x, f.maxSizeX / 2.0)
              && Between(r.extent.y, f.initialExtent.y, f.maxSizeY / 2.0)
              && r.extent.z == f.initialExtent.z
              && r.visualScale == VisualScaleFor(r.extent)
              && InStep(r)
              && r.(elapsed := f.elapsed, extent := f.extent, visualScale := f.visualScale) == f
  {
    if f.elapsed >= f.expansionDuration then
      f.(timerActive := false)
    else
      var elapsed := f.elapsed + f.updateInterval;
      var extent := ExtentAt(f, elapsed);
      f.(elapsed := elapsed, extent := extent, visualScale := VisualScaleFor(extent))
  }

  /** Once the duration has elapsed, an extent in step with the time is the full extent. */
  lemma InStepAtEnd(f: FireVolume)
    requires f.expansionDuration > 0.0
    requires InStep(f) && f.elapsed >= f.expansionDuration
    ensures f.extent == FullExtent(f)
  {
  }

  /**
   * With a maximum size at least twice the initial extent and a non-negative interval,
   * a step never shrinks the horizontal extent.
   */
  lemma StepNeverShrinks(f: FireVolume)
    requires f.expansionDuration > 0.0 && f.updateInterval >= 0.0
    requires f.initialExtent.x <= f.maxSizeX / 2.0 && f.initialExtent.y <= f.maxSizeY / 2.0
    requires InStep(f)
    ensures ExpandVolumeStep(f).extent.x >= f.extent.x
    ensures ExpandVolumeStep(f).extent.y >= f.extent.y
  {
    if f.elapsed < f.expansionDuration {
      var g1 := GrowthFactor(f.elapsed, f.expansionDuration);
      var g2 := GrowthFactor(f.elapsed + f.updateInterval, f.expansionDuration);
      GrowthFactorMonotone(f.elapsed, f.elapsed + f.updateInterval, f.expansionDuration);
      LerpMonotone(f.initialExtent.x, f.maxSizeX / 2.0, g1, g2);
      LerpMonotone(f.initialExtent.y, f.maxSizeY / 2.0, g1, g2);
    }
  }

  /** Once the timer has been cleared, further ticks change nothing. */
  lemma StoppedStaysStopped(f: FireVolume)
    requires f.expansionDuration > 0.0
    requires f.elapsed >= f.expansionDuration
    ensures var r := ExpandVolumeStep(f);
            !r.timerActive && ExpandVolumeStep(r) == r
  {
  }

  /** Each tick before the end uses up one interval of the remaining time. */
  lemma RemainingTicksDecrease(remaining: real, interval: real)
    requires interval > 0.0 && remaining > 0.0
    ensures (remaining / interval).Floor >= 0
    ensures ((remaining - interval) / interval).Floor < (remaining / interval).Floor
  {
    var q := remaining / interval;
    var q' := (remaining - interval) / interval;
    assert q * interval == remaining;
    assert q' * interval == remaining - interval;
    assert (q - q' - 1.0) * interval == 0.0;
    if q - q' - 1.0 != 0.0 {
      if q - q' - 1.0 > 0.0 {
        MulPos(q - q' - 1.0, interval);
      } else {
        MulPos(-(q - q' - 1.0), interval);
      }
    }
    MulPos(remaining, 1.0 / interval);
  }

  /**
   * Tick the timer until it is cleared. A configured volume that starts at its initial
   * extent ends at the full extent, after one tick per interval of the duration plus the
   * tick that clears the timer.
   */
  method RunExpansion(f0: FireVolume) returns (f: FireVolume, ticks: nat)
    requires Configured(f0) && f0.timerActive
    requires f0.elapsed == 0.0 && f0.extent == f0.initialExtent
    ensures !f.timerActive
    ensures ticks >= 1
    ensures f.elapsed >= f.expansionDuration
    ensures f.extent == FullExtent(f0)
    ensures f.visualScale == VisualScaleFor(FullExtent(f0))
  {
    f := f0;
    ticks := 0;
    var interval := f0.updateInterval;
    var duration := f0.expansionDuration;
    assert InStep(f);
    while f.elapsed < duration
      invariant f.timerActive
      invariant f.initialExtent == f0.initialExtent && f.updateInterval == interval
      invariant f.expansionDuration == duration
      invariant f.maxSizeX == f0.maxSizeX && f.maxSizeY == f0.maxSizeY
      invariant InStep(f)
      invariant f.elapsed >= 0.0 && (ticks == 0 ==> f.elapsed == 0.0)
      invariant ticks > 0 ==> f.visualScale == VisualScaleFor(f.extent)
      decreases ((duration - f.elapsed) / interval).Floor
    {
      RemainingTicksDecrease(duration - f.elapsed, interval);
      f := ExpandVolumeStep(f);
      ticks := ticks + 1;
    }
    InStepAtEnd(f);
    f := ExpandVolumeStep(f);
  }
}

=== FILE: footprint.dfy ===
/**
 * The footprint-resize state machine: shrinking the capsule of a stuck agent,
 * restoring it, and the per-frame interpolation toward the target size.
 */
module Footprint {
  import opened Engine
  import opened Character

  const ShrinkRadiusFactor: real := 0.7
  const ShrinkHalfHeightFactor: real := 0.8

  /** Both dimensions within this distance of the target end a resize. */
  const ResizeTolerance: real := 0.5

  /** The target pair is the shrunk size derived from the cached defaults. */
  predicate TargetsShrunk(a: Agent) {
    a.targetRadius == a.defaultRadius * ShrinkRadiusFactor
    && a.targetHalfHeight == a.defaultHalfHeight * ShrinkHalfHeightFactor
  }

  /** The target pair is exactly the cached defaults. */
  predicate TargetsDefault(a: Agent) {
    a.targetRadius == a.defaultRadius && a.targetHalfHeight == a.defaultHalfHeight
  }

  /**
   * The footprint invariant. A shrunk agent targets the shrunk size; any other agent
   * targets its defaults, except that before the first shrink the targets still hold
   * their initial zeros, and then no resize is in progress.
   */
  predicate FootprintInvariant(a: Agent) {
    (a.capsuleShrunk ==> TargetsShrunk(a))
    && (!a.capsuleShrunk ==>
          TargetsDefault(a)
          || (a.targetRadius == 0.0 && a.targetHalfHeight == 0.0 && !a.resizingCapsule))
  }

  /** Every target the agent can be resizing toward is the default or the shrunk pair. */
  lemma InvariantTargetsLegal(a: Agent)
    requires FootprintInvariant(a)
    requires a.resizingCapsule
    ensures TargetsDefault(a) || TargetsShrunk(a)
  {
  }

  /**
   * Start shrinking the capsule and arm the one-shot restore timer; an agent that has
   * mustered is left untouched.
   */
  function ShrinkCapsule(a: Agent): (r: Agent)
    ensures a.hasMustered ==> r == a
    ensures !a.hasMustered ==>
              r.capsuleShrunk && r.resizingCapsule && TargetsShrunk(r)
              && r.timers == a.timers + {CapsuleResetTimer}
              && r.(capsuleShrunk := a.capsuleShrunk, resizingCapsule := a.resizingCapsule,
                    targetRadius := a.targetRadius, targetHalfHeight := a.targetHalfHeight,
                    timers := a.timers) == a
    ensures FootprintInvariant(a) ==> FootprintInvariant(r)
  {
    if a.hasMustered then a
    else
      a.(capsuleShrunk := true,
         resizingCapsule := true,
         targetRadius := a.defaultRadius * ShrinkRadiusFactor,
         targetHalfHeight := a.defaultHalfHeight * ShrinkHalfHeightFactor,
         timers := a.timers + {CapsuleResetTimer})
  }

  /**
   * Start growing the capsule back to the cached defaults and restart the stall count;
   * unconditional (it does not consult `hasMustered`).
   */
  function RestoreCapsule(a: Agent): (r: Agent)
    ensures !r.capsuleShrunk && r.resizingCapsule && TargetsDefault(r)
    ensures r.timeSinceLastMove == 0.0
    ensures r.(capsuleShrunk := a.capsuleShrunk, resizingCapsule := a.resizingCapsule,
               targetRadius := a.targetRadius, targetHalfHeight := a.targetHalfHeight,
               timeSinceLastMove := a.timeSinceLastMove) == a
    ensures FootprintInvariant(r)
  {
    a.(resizingCapsule := true,
       capsuleShrunk := false,
       targetRadius := a.defaultRadius,
       targetHalfHeight := a.defaultHalfHeight,
       timeSinceLastMove := 0.0)
  }

  /**
   * The resize branch of a frame. `newRadius` and `newHalfHeight` are the engine's
   * interpolations of each dimension toward its target; the resize ends once both are
   * within tolerance of the target.
   */
  function ResizeTick(a: Agent, newRadius: real, newHalfHeight: real): (r: Agent)
    requires Between(newRadius, a.radius, a.targetRadius)
    requires Between(newHalfHeight, a.halfHeight, a.targetHalfHeight)
    ensures !a.resizingCapsule ==> r == a
    ensures a.resizingCapsule ==>
              r.radius == newRadius && r.halfHeight == newHalfHeight
              && (r.resizingCapsule <==>
                    !(Abs(r.radius - r.targetRadius) <= ResizeTolerance
                      && Abs(r.halfHeight - r.targetHalfHeight) <= ResizeTolerance))
    ensures Abs(r.radius - r.targetRadius) <= Abs(a.radius - a.targetRadius)
    ensures Abs(r.halfHeight - r.targetHalfHeight) <= Abs(a.halfHeight - a.targetHalfHeight)
    ensures r.(radius := a.radius, halfHeight := a.halfHeight,
               resizingCapsule := a.resizingCapsule) == a
    ensures FootprintInvariant(a) ==> FootprintInvariant(r)
  {
    if !a.resizingCapsule then a
    else
      var done := IsNearlyEqual(newRadius, a.targetRadius, ResizeTolerance)
                  && IsNearlyEqual(newHalfHeight, a.targetHalfHeight, ResizeTolerance);
      a.(radius := newRadius, halfHeight := newHalfHeight, resizingCapsule := !done)
  }
}

=== FILE: lifecycle.dfy ===
/**
 * The life of one agent: construction, spawn, the per-frame tick, the timer callbacks,
 * and the end of the run once the agent has mustered. The engine's scheduler is replaced
 * by a sequence of events, each delivered only while the agent would receive it: frames
 * while ticking is enabled, and a timer's callback while that timer is set.
 */
module Lifecycle {
  import opened Engine
  import opened Character
  import opened Footprint
  import opened StuckDetection
  import opened NavRecovery
  import opened Tuning
  import opened Avoidance
  import opened AgentMovement

  /** The header's initial walking speeds on the flat and on stairs. */
  const InitialWalkSpeedOnFlat: real := 150.0
  const InitialWalkSpeedOnStairs: real := 100.0

  /** The avoidance radius set at spawn. */
  const SpawnConsiderationRadius: real := 50.0

  /** The timers set at spawn. */
  const SpawnTimers: set<Timer> := {ThrottledUpdateTimer, StuckCheckTimer, NavMeshCheckTimer}

  /**
   * A freshly constructed agent: the header's initial values, with the capsule size and
   * the movement component's settings as the engine supplies them. The agent is under
   * its AI controller from the start.
   */
  function Constructed(id: nat, location: Vec3, rightVector: Vec3, radius: real, halfHeight: real,
                       maxWalkSpeed: real, avoidanceWeight: real, considerationRadius: real): (a: Agent)
    ensures FootprintInvariant(a)
    ensures !a.capsuleShrunk && !a.resizingCapsule && !a.recovering && !a.hasMustered
    ensures a.timers == {}
  {
    Agent(id := id, location := location, velocity := Zero, rightVector := rightVector,
          radius := radius, halfHeight := halfHeight,
          defaultRadius := 0.0, defaultHalfHeight := 0.0,
          targetRadius := 0.0, targetHalfHeight := 0.0,
          capsuleShrunk := false, resizingCapsule := false, hasMustered := false,
          lastLocation := Zero, timeSinceLastMove := 0.0,
          recovering := false, recoveryTarget := Zero,
          walkSpeedOnFlat := InitialWalkSpeedOnFlat, walkSpeedOnStairs := InitialWalkSpeedOnStairs,
          maxWalkSpeed := maxWalkSpeed, avoidanceWeight := avoidanceWeight,
          customAvoidanceWeight := 0.0, avoidanceConsiderationRadius := considerationRadius,
          nearbyAgents := [], moveMode := Walking, tickEnabled := false, possessed := true,
          timers := {})
  }

  /**
   * Spawn: set the throttled-update, stuck-check and off-surface-check timers, set the
   * avoidance radius, cache the capsule size as the defaults and the location as the last
   * sampled one, and start ticking. No off-surface check is run at once.
   */
  function BeginPlay(a: Agent): (r: Agent)
    ensures r.timers == a.timers + SpawnTimers
    ensures r.tickEnabled
    ensures r.avoidanceConsiderationRadius == SpawnConsiderationRadius
    ensures r.defaultRadius == a.radius && r.defaultHalfHeight == a.halfHeight
    ensures r.lastLocation == a.location
    ensures r.(timers := a.timers, tickEnabled := a.tickEnabled,
               avoidanceConsiderationRadius := a.avoidanceConsiderationRadius,
               defaultRadius := a.defaultRadius, defaultHalfHeight := a.defaultHalfHeight,
               lastLocation := a.lastLocation) == a
  {
    a.(timers := a.timers + SpawnTimers,
       tickEnabled := true,
       avoidanceConsiderationRadius := SpawnConsiderationRadius,
       defaultRadius := a.radius,
       defaultHalfHeight := a.halfHeight,
       lastLocation := a.location)
  }

  /** A spawned agent satisfies the footprint invariant and has exactly the spawn timers. */
  lemma SpawnedAgentWellFormed(id: nat, location: Vec3, rightVector: Vec3, radius: real,
                               halfHeight: real, maxWalkSpeed: real, avoidanceWeight: real,
                               considerationRadius: real)
    ensures var a := BeginPlay(Constructed(id, location, rightVector, radius, halfHeight,
                                           maxWalkSpeed, avoidanceWeight, considerationRadius));
            FootprintInvariant(a) && a.timers == SpawnTimers
            && a.defaultRadius == radius && a.defaultHalfHeight == halfHeight
  {
  }

  /** What a frame produces: the new agent and the movement input issued, if any. */
  datatype TickOutcome = TickOutcome(agent: Agent, input: Option<Vec3>)

  /**
   * The state change of one frame: a resize in progress takes one interpolation step
   * (each fraction abstracts the engine's interpolation of that dimension), then a
   * recovering agent takes one relocation step.
   */
  function FrameUpdate(a: Agent, nav: Nav, radiusFraction: real, halfHeightFraction: real,
                       recoveryFraction: real): (r: Agent)
    requires 0.0 <= radiusFraction <= 1.0 && 0.0 <= halfHeightFraction <= 1.0
    requires 0.0 <= recoveryFraction <= 1.0
    ensures !a.resizingCapsule && !a.recovering ==> r == a
    ensures !a.recovering ==> r.location == a.location
    ensures a.recovering ==>
              r.location == a.location
              || (nav.NavSystem?
                  && nav.project(VInterpToward(a.location, a.recoveryTarget, recoveryFraction),
                                 Cube(SnapExtent)) == Some(r.location))
    ensures a.resizingCapsule ==>
              r.radius == InterpToward(a.radius, a.targetRadius, radiusFraction)
              && r.halfHeight == InterpToward(a.halfHeight, a.targetHalfHeight, halfHeightFraction)
              && (r.resizingCapsule <==>
                    !(Abs(r.radius - a.targetRadius) <= ResizeTolerance
                      && Abs(r.halfHeight - a.targetHalfHeight) <= ResizeTolerance))
    ensures !a.resizingCapsule ==>
              r.radius == a.radius && r.halfHeight == a.halfHeight && !r.resizingCapsule
    ensures r.targetRadius == a.targetRadius && r.targetHalfHeight == a.targetHalfHeight
    ensures a.recovering && nav.NavSystem? ==>
              var snapped := nav.project(VInterpToward(a.location, a.recoveryTarget, recoveryFraction),
                                         Cube(SnapExtent));
              snapped.Some? ==> r.location == snapped.value
    ensures a.recovering ==>
              (r.recovering <==> DistSq(r.location, a.recoveryTarget) >= ArrivalDistSq)
    ensures a.recovering && !r.recovering ==> r.moveMode == Walking && r.velocity == Zero
    ensures !a.recovering ==> !r.recovering && r.moveMode == a.moveMode && r.velocity == a.velocity
    ensures FootprintInvariant(a) ==> FootprintInvariant(r)
    ensures r.timers == a.timers
    ensures r.defaultRadius == a.defaultRadius && r.defaultHalfHeight == a.defaultHalfHeight
    ensures r.capsuleShrunk == a.capsuleShrunk && r.hasMustered == a.hasMustered
    ensures a.recovering && r.recovering ==> r.moveMode == a.moveMode && r.velocity == a.velocity
    ensures r.(radius := a.radius, halfHeight := a.halfHeight, resizingCapsule := a.resizingCapsule,
               location := a.location, recovering := a.recovering, moveMode := a.moveMode,
               velocity := a.velocity) == a
  {
    var resized := ResizeTick(a, InterpToward(a.radius, a.targetRadius, radiusFraction),
                              InterpToward(a.halfHeight, a.targetHalfHeight, halfHeightFraction));
    if resized.recovering then SmoothRecoverToNavMesh(resized, nav, recoveryFraction)
    else resized
  }

  /** One frame: the avoidance input, computed before the frame's state change. */
  function Tick(a: Agent, nav: Nav, locate: nat -> Vec3, size: Vec3 -> real,
                radiusFraction: real, halfHeightFraction: real, recoveryFraction: real): (o: TickOutcome)
    requires IsSize(size)
    requires 0.0 <= radiusFraction <= 1.0 && 0.0 <= halfHeightFraction <= 1.0
    requires 0.0 <= recoveryFraction <= 1.0
    ensures o.agent == FrameUpdate(a, nav, radiusFraction, halfHeightFraction, recoveryFraction)
    ensures o.input.Some? ==> SizeSq(o.input.value) == 1.0
    ensures o.input.Some? ==>
              SameDirection(o.input.value, Blend(a.velocity, RepulsionForce(a, locate, size), size))
    ensures o.input.Some? <==> Issues(a.velocity, RepulsionForce(a, locate, size), size)
    ensures IsNearlyZero(a.velocity) ==>
              (o.input.Some? <==> SizeSq(RepulsionForce(a, locate, size)) > MinRepulsionSq)
  {
    TickOutcome(FrameUpdate(a, nav, radiusFraction, halfHeightFraction, recoveryFraction),
                MovementInput(a, locate, size))
  }

  /**
   * The end of the run for a mustered agent: stop ticking, clear every timer, disable
   * movement and release the controller. It does not itself set `hasMustered`.
   */
  function FinishedMustering(a: Agent): (r: Agent)
    ensures !r.tickEnabled && r.timers == {} && r.moveMode == MoveDisabled && !r.possessed
    ensures r.(tickEnabled := a.tickEnabled, timers := a.timers, moveMode := a.moveMode,
               possessed := a.possessed) == a
  {
    a.(tickEnabled := false, timers := {}, moveMode := MoveDisabled, possessed := false)
  }

  /** Ending the run twice is the same as ending it once. */
  lemma FinishedMusteringIdempotent(a: Agent)
    ensures FinishedMustering(FinishedMustering(a)) == FinishedMustering(a)
  {
  }

  /** Something the engine or the level delivers to the agent. */
  datatype Event =
    | Frame(radiusFraction: real, halfHeightFraction: real, recoveryFraction: real)
    | Moved(location: Vec3, velocity: Vec3, rightVector: Vec3)
    | ThrottledUpdateDue(overlaps: seq<nat>)
    | StuckCheckDue(onStairs: bool)
    | NavMeshCheckDue
    | CapsuleResetDue
    | MusteringFinished

  predicate WellFormedEvent(e: Event) {
    e.Frame? ==>
      0.0 <= e.radiusFraction <= 1.0 && 0.0 <= e.halfHeightFraction <= 1.0
      && 0.0 <= e.recoveryFraction <= 1.0
  }

  /**
   * What every event except the end of the run keeps: the footprint invariant, the cached
   * defaults and the mustered flag; and the only timer it may add is the restore timer.
   */
  predicate Keeps(a: Agent, r: Agent) {
    (FootprintInvariant(a) ==> FootprintInvariant(r))
    && r.defaultRadius == a.defaultRadius && r.defaultHalfHeight == a.defaultHalfHeight
    && r.hasMustered == a.hasMustered
    && r.timers <= a.timers + {CapsuleResetTimer}
  }

  /** A frame, delivered only while ticking is enabled. */
  function OnFrame(a: Agent, nav: Nav, rf: real, hf: real, vf: real): (r: Agent)
    requires 0.0 <= rf <= 1.0 && 0.0 <= hf <= 1.0 && 0.0 <= vf <= 1.0
    ensures Keeps(a, r)
    ensures !a.tickEnabled ==> r == a
  {
    if a.tickEnabled then FrameUpdate(a, nav, rf, hf, vf) else a
  }

  /**
   * A walking step of the locomotion layer: the agent takes the new location, facing and
   * velocity, and the movement component then clamps the horizontal speed to the current
   * maximum. An agent whose movement is disabled is not moved.
   */
  function OnMoved(a: Agent, location: Vec3, velocity: Vec3, rightVector: Vec3,
                   size: Vec3 -> real): (r: Agent)
    requires IsSize(size)
    ensures Keeps(a, r)
    ensures a.moveMode == MoveDisabled ==> r == a
    ensures a.moveMode == Walking ==>
              r.location == location && r.rightVector == rightVector
              && r.velocity.z == velocity.z
              && SizeSq(Horizontal(r.velocity)) <= a.maxWalkSpeed * a.maxWalkSpeed
              && r.velocity == HorizontalSpeedClamp(velocity, a.maxWalkSpeed, size)
              && r.(location := a.location, rightVector := a.rightVector,
                    velocity := a.velocity) == a
  {
    if a.moveMode == Walking then
      a.(location := location, rightVector := rightVector,
         velocity := HorizontalSpeedClamp(velocity, a.maxWalkSpeed, size))
    else a
  }

  /** The throttled update, delivered only while its timer is set. */
  function OnThrottledUpdate(a: Agent, nav: Nav, overlaps: seq<nat>, size: Vec3 -> real): (r: Agent)
    requires IsSize(size)
    ensures Keeps(a, r)
    ensures ThrottledUpdateTimer !in a.timers ==> r == a
  {
    if ThrottledUpdateTimer in a.timers then ThrottledUpdate(a, nav, overlaps, size) else a
  }

  /** The stuck check, delivered only while its timer is set. */
  function OnStuckCheck(a: Agent, onStairs: bool): (r: Agent)
    ensures Keeps(a, r)
    ensures StuckCheckTimer !in a.timers ==> r == a
  {
    if StuckCheckTimer in a.timers then CheckIfStuck(a, onStairs).agent else a
  }

  /** The off-surface check, delivered only while its timer is set. */
  function OnNavMeshCheck(a: Agent, nav: Nav): (r: Agent)
    ensures Keeps(a, r)
    ensures NavMeshCheckTimer !in a.timers ==> r == a
  {
    if NavMeshCheckTimer in a.timers then CheckNavMeshRecovery(a, nav) else a
  }

  /** The one-shot restore timer: it clears itself as it fires. */
  function OnCapsuleReset(a: Agent): (r: Agent)
    ensures Keeps(a, r)
    ensures CapsuleResetTimer !in a.timers ==> r == a
    ensures CapsuleResetTimer in a.timers ==> r.timers == a.timers - {CapsuleResetTimer}
    ensures CapsuleResetTimer in a.timers ==>
              !r.capsuleShrunk && r.resizingCapsule
              && r.targetRadius == a.defaultRadius && r.targetHalfHeight == a.defaultHalfHeight
              && r.timeSinceLastMove == 0.0
    ensures CapsuleResetTimer in a.timers ==>
              r.(capsuleShrunk := a.capsuleShrunk, resizingCapsule := a.resizingCapsule,
                 targetRadius := a.targetRadius, targetHalfHeight := a.targetHalfHeight,
                 timeSinceLastMove := a.timeSinceLastMove, timers := a.timers) == a
  {
    if CapsuleResetTimer in a.timers
    then RestoreCapsule(a.(timers := a.timers - {CapsuleResetTimer}))
    else a
  }

  /**
   * Deliver one event. A frame is ignored while ticking is disabled, a locomotion step
   * while movement is disabled, and a timer callback while its timer is not set; the
   * restore timer is one-shot and clears itself as it fires; the other timers loop.
   */
  function Dispatch(a: Agent, e: Event, nav: Nav, locate: nat -> Vec3, size: Vec3 -> real): (r: Agent)
    requires IsSize(size)
    requires WellFormedEvent(e)
    ensures FootprintInvariant(a) ==> FootprintInvariant(r)
    ensures r.defaultRadius == a.defaultRadius && r.defaultHalfHeight == a.defaultHalfHeight
    ensures r.hasMustered == a.hasMustered
    ensures e.MusteringFinished? || r.timers <= a.timers + {CapsuleResetTimer}
    ensures (!e.MusteringFinished? && !a.tickEnabled && a.timers == {}
             && (e.Moved? ==> a.moveMode == MoveDisabled)) ==> r == a
    ensures e.Frame? && a.tickEnabled ==>
              r == FrameUpdate(a, nav, e.radiusFraction, e.halfHeightFraction, e.recoveryFraction)
    ensures e.Moved? && a.moveMode == Walking ==>
              r.location == e.location && r.rightVector == e.rightVector
              && r.velocity == HorizontalSpeedClamp(e.velocity, a.maxWalkSpeed, size)
    ensures e.ThrottledUpdateDue? && ThrottledUpdateTimer in a.timers ==>
              r == ThrottledUpdate(a, nav, e.overlaps, size)
    ensures e.StuckCheckDue? && StuckCheckTimer in a.timers ==> r == CheckIfStuck(a, e.onStairs).agent
    ensures e.NavMeshCheckDue? && NavMeshCheckTimer in a.timers ==> r == CheckNavMeshRecovery(a, nav)
    ensures e.CapsuleResetDue? && CapsuleResetTimer in a.timers ==>
              r == RestoreCapsule(a.(timers := a.timers - {CapsuleResetTimer}))
    ensures e.MusteringFinished? ==> r == FinishedMustering(a)
  {
    match e
    case Frame(rf, hf, vf) => OnFrame(a, nav, rf, hf, vf)
    case Moved(location, velocity, rightVector) => OnMoved(a, location, velocity, rightVector, size)
    case ThrottledUpdateDue(overlaps) => OnThrottledUpdate(a, nav, overlaps, size)
    case StuckCheckDue(onStairs) => OnStuckCheck(a, onStairs)
    case NavMeshCheckDue => OnNavMeshCheck(a, nav)
    case CapsuleResetDue => OnCapsuleReset(a)
    case MusteringFinished => FinishedMustering(a)
  }

  /** Deliver a sequence of events in order. */
  function RunEvents(a: Agent, es: seq<Event>, nav: Nav, locate: nat -> Vec3,
                     size: Vec3 -> real): Agent
    requires IsSize(size)
    requires forall i :: 0 <= i < |es| ==> WellFormedEvent(es[i])
    decreases |es|
  {
    if |es| == 0 then a
    else RunEvents(Dispatch(a, es[0], nav, locate, size), es[1..], nav, locate, size)
  }

  /**
   * Over any run, the footprint invariant holds throughout, the cached defaults never
   * change, and the only timer that can appear besides those already set is the restore
   * timer (until the run is ended).
   */
  lemma {:induction false} RunPreservesFootprint(a: Agent, es: seq<Event>, nav: Nav,
                                                 locate: nat -> Vec3, size: Vec3 -> real)
    requires IsSize(size)
    requires forall i :: 0 <= i < |es| ==> WellFormedEvent(es[i])
    requires FootprintInvariant(a)
    ensures var r := RunEvents(a, es, nav, locate, size);
            FootprintInvariant(r)
            && r.defaultRadius == a.defaultRadius && r.defaultHalfHeight == a.defaultHalfHeight
            && r.hasMustered == a.hasMustered
            && ((forall i :: 0 <= i < |es| ==> !es[i].MusteringFinished?) ==>
                  r.timers <= a.timers + {CapsuleResetTimer})
    decreases |es|
  {
    if |es| > 0 {
      var b := Dispatch(a, es[0], nav, locate, size);
      assert forall i :: 0 <= i < |es[1..]| ==> es[1..][i] == es[i + 1];
      RunPreservesFootprint(b, es[1..], nav, locate, size);
    }
  }

  /** Once the run has been ended, no event changes the agent any more. */
  lemma {:induction false} EndedRunIsInert(a: Agent, es: seq<Event>, nav: Nav,
                                           locate: nat -> Vec3, size: Vec3 -> real)
    requires IsSize(size)
    requires forall i :: 0 <= i < |es| ==> WellFormedEvent(es[i])
    ensures var ended := FinishedMustering(a);
            RunEvents(ended, es, nav, locate, size) == ended
    decreases |es|
  {
    if |es| > 0 {
      var ended := FinishedMustering(a);
      FinishedMusteringIdempotent(a);
      assert Dispatch(ended, es[0], nav, locate, size) == ended;
      assert forall i :: 0 <= i < |es[1..]| ==> es[1..][i] == es[i + 1];
      EndedRunIsInert(a, es[1..], nav, locate, size);
    }
  }

  /**
   * A stuck check that shrinks the footprint, followed by the restore timer firing, leaves
   * the agent targeting its defaults, unshrunk and resizing, with no stall time, and with
   * the timers it had before.
   */
  lemma ShrinkThenRestore(a: Agent, onStairs: bool, nav: Nav, locate: nat -> Vec3,
                          size: Vec3 -> real)
    requires IsSize(size)
    requires StuckCheckTimer in a.timers && CapsuleResetTimer !in a.timers
    requires CheckIfStuck(a, onStairs).shrinkTriggered && !a.hasMustered
    ensures var b := Dispatch(a, StuckCheckDue(onStairs), nav, locate, size);
            b.capsuleShrunk && TargetsShrunk(b) && CapsuleResetTimer in b.timers
            && var c := Dispatch(b, CapsuleResetDue, nav, locate, size);
               !c.capsuleShrunk && c.resizingCapsule && TargetsDefault(c)
               && c.timeSinceLastMove == 0.0 && c.timers == a.timers
  {
    var b := Dispatch(a, StuckCheckDue(onStairs), nav, locate, size);
    assert b.timers == a.timers + {CapsuleResetTimer};
    assert b.timers - {CapsuleResetTimer} == a.timers;
  }

  /**
   * A walking agent that the locomotion layer carries at least 5 units from where it was
   * last sampled has its stall time reset by the next stuck check, which resamples the new
   * location and requests no shrink.
   */
  lemma MovedAgentResetsStall(a: Agent, location: Vec3, velocity: Vec3, rightVector: Vec3,
                              onStairs: bool, nav: Nav, locate: nat -> Vec3, size: Vec3 -> real)
    requires IsSize(size)
    requires a.moveMode == Walking && StuckCheckTimer in a.timers
    requires DistSq(location, a.lastLocation) >= StuckDistance * StuckDistance
    ensures var b := Dispatch(a, Moved(location, velocity, rightVector), nav, locate, size);
            var c := Dispatch(b, StuckCheckDue(onStairs), nav, locate, size);
            c.timeSinceLastMove == 0.0 && c.lastLocation == location
            && !CheckIfStuck(b, onStairs).shrinkTriggered
  {
    var b := Dispatch(a, Moved(location, velocity, rightVector), nav, locate, size);
    assert b.location == location && b.lastLocation == a.lastLocation;
    assert !Stationary(b);
  }
}

=== FILE: recovery.dfy ===
/**
 * The off-surface recovery state machine: a periodic check that the agent still projects
 * onto the navigation mesh, the choice of a fallback point when it does not, and the
 * per-frame relocation toward that point.
 */
module NavRecovery {
  import opened Engine
  import opened Character

  /** Extent of the on-mesh check. */
  const ProbeExtent: real := 100.0

  /** Extent of the search for a fallback point. */
  const FallbackExtent: real := 500.0

  /** Extent of the re-projection after each relocation step. */
  const SnapExtent: real := 50.0

  /** Recovery ends once the squared distance to the target is below this. */
  const ArrivalDistSq: real := 100.0

  /**
   * The fallback point: the nearest mesh point within the wide extent, or the agent's own
   * location when there is no navigation system or no such point. It never fails.
   */
  function FindClosestValidPoint(a: Agent, nav: Nav): (p: Vec3)
    ensures nav.NoNav? ==> p == a.location
    ensures nav.NavSystem? ==>
              match nav.project(a.location, Cube(FallbackExtent))
              case Some(q) => p == q
              case None => p == a.location
    ensures p == a.location
            || (nav.NavSystem? && nav.project(a.location, Cube(FallbackExtent)) == Some(p))
  {
    match nav
    case NoNav => a.location
    case NavSystem(project) =>
      match project(a.location, Cube(FallbackExtent))
      case Some(q) => q
      case None => a.location
  }

  /**
   * The periodic on-mesh check. Nothing happens while recovering, without a navigation
   * system, or when the agent projects onto the mesh; otherwise the agent starts
   * recovering toward the fallback point with movement disabled.
   */
  function CheckNavMeshRecovery(a: Agent, nav: Nav): (r: Agent)
    ensures a.recovering || nav.NoNav? ==> r == a
    ensures nav.NavSystem? && nav.project(a.location, Cube(ProbeExtent)).Some? ==> r == a
    ensures !a.recovering && nav.NavSystem? && nav.project(a.location, Cube(ProbeExtent)).None? ==>
              r.recovering && r.moveMode == MoveDisabled
              && r.recoveryTarget == FindClosestValidPoint(a, nav)
              && r.(recovering := a.recovering, moveMode := a.moveMode,
                    recoveryTarget := a.recoveryTarget) == a
    ensures r.recovering && !a.recovering ==>
              r.recoveryTarget == a.location
              || nav.project(a.location, Cube(FallbackExtent)) == Some(r.recoveryTarget)
  {
    if a.recovering then a
    else match nav
      case NoNav => a
      case NavSystem(project) =>
        if project(a.location, Cube(ProbeExtent)).None? then
          a.(recoveryTarget := FindClosestValidPoint(a, nav),
             recovering := true,
             moveMode := MoveDisabled)
        else a
  }

  /**
   * One relocation step. `fraction` abstracts the engine's interpolation toward the
   * target; the agent moves only when the interpolated point re-projects onto the mesh,
   * and it arrives (walking again, velocity zeroed) once within the arrival distance.
   */
  function SmoothRecoverToNavMesh(a: Agent, nav: Nav, fraction: real): (r: Agent)
    requires 0.0 <= fraction <= 1.0
    ensures r.location == a.location
            || (nav.NavSystem?
                && nav.project(VInterpToward(a.location, a.recoveryTarget, fraction), Cube(SnapExtent))
                   == Some(r.location))
    ensures nav.NoNav? || nav.project(VInterpToward(a.location, a.recoveryTarget, fraction),
                                      Cube(SnapExtent)).None? ==>
              r.location == a.location
    ensures nav.NavSystem? ==>
              var snapped := nav.project(VInterpToward(a.location, a.recoveryTarget, fraction),
                                         Cube(SnapExtent));
              snapped.Some? ==> r.location == snapped.value
    ensures DistSq(r.location, a.recoveryTarget) < ArrivalDistSq ==>
              !r.recovering && r.moveMode == Walking && r.velocity == Zero
    ensures DistSq(r.location, a.recoveryTarget) >= ArrivalDistSq ==>
              r == a.(location := r.location)
    ensures r.(location := a.location, recovering := a.recovering, moveMode := a.moveMode,
               velocity := a.velocity) == a
  {
    var location := SnapTo(nav, VInterpToward(a.location, a.recoveryTarget, fraction), a.location);
    if DistSq(location, a.recoveryTarget) < ArrivalDistSq then
      a.(location := location, recovering := false, moveMode := Walking, velocity := Zero)
    else
      a.(location := location)
  }

  /** The 50-unit mesh projection of `next`, or `current` when there is none. */
  function SnapTo(nav: Nav, next: Vec3, current: Vec3): (p: Vec3)
    ensures nav.NoNav? ==> p == current
    ensures nav.NavSystem? ==>
              var snapped := nav.project(next, Cube(SnapExtent));
              (snapped.Some? ==> p == snapped.value) && (snapped.None? ==> p == current)
  {
    match nav
    case NoNav => current
    case NavSystem(project) =>
      match project(next, Cube(SnapExtent))
      case Some(q) => q
      case None => current
  }

  /**
   * When the interpolated point is itself on the mesh, one step shrinks the squared
   * distance to the target by the factor `(1 - fraction)^2`.
   */
  lemma RecoveryStepProgress(a: Agent, nav: Nav, fraction: real)
    requires 0.0 <= fraction <= 1.0
    requires nav.NavSystem?
    requires var next := VInterpToward(a.location, a.recoveryTarget, fraction);
             nav.project(next, Cube(SnapExtent)) == Some(next)
    ensures var r := SmoothRecoverToNavMesh(a, nav, fraction);
            DistSq(r.location, a.recoveryTarget)
            == (1.0 - fraction) * (1.0 - fraction) * DistSq(a.location, a.recoveryTarget)
  {
    var next := VInterpToward(a.location, a.recoveryTarget, fraction);
    var d := Sub(a.recoveryTarget, a.location);
    assert Sub(a.recoveryTarget, next) == Scale(d, 1.0 - fraction);
    SizeSqScale(d, 1.0 - fraction);
    SizeSqScale(Sub(a.recoveryTarget, next), -1.0);
    SizeSqScale(d, -1.0);
    assert Scale(Sub(a.recoveryTarget, next), -1.0) == Sub(next, a.recoveryTarget);
    assert Scale(d, -1.0) == Sub(a.location, a.recoveryTarget);
  }

  /**
   * An agent whose fallback search failed targets its own location; if it is still off
   * the mesh at the snap extent, the next step ends the recovery and re-enables walking.
   */
  lemma SelfFallbackEndsNextStep(a: Agent, nav: Nav, fraction: real)
    requires 0.0 <= fraction <= 1.0
    requires !a.recovering && nav.NavSystem?
    requires nav.project(a.location, Cube(ProbeExtent)).None?
    requires nav.project(a.location, Cube(FallbackExtent)).None?
    requires nav.project(a.location, Cube(SnapExtent)).None?
    ensures var b := CheckNavMeshRecovery(a, nav);
            b.recovering && b.recoveryTarget == a.location
            && var c := SmoothRecoverToNavMesh(b, nav, fraction);
               !c.recovering && c.moveMode == Walking && c.velocity == Zero
               && c.location == a.location
  {
    var b := CheckNavMeshRecovery(a, nav);
    assert VInterpToward(b.location, b.recoveryTarget, fraction) == a.location;
  }
}

=== FILE: stuck.dfy ===
/**
 * The stuck detector: a periodic displacement check that accumulates stall time and,
 * once the agent has stalled long enough, shrinks its footprint and (on stairs) asks
 * for a downhill nudge.
 */
module StuckDetection {
  import opened Engine
  import opened Character
  import opened Footprint

  /** A displacement below this distance counts as not having moved. */
  const StuckDistance: real := 5.0

  /** Stall time added by each check that finds the agent has not moved. */
  const StallIncrement: real := 0.3

  /** Stall time beyond which the footprint is shrunk. */
  const StallThreshold: real := 2.0

  /**
   * The result of one check: the new agent, whether the shrink was requested, and
   * whether the downhill nudge was applied (the nudge's velocity change is not modelled).
   */
  datatype StuckOutcome = StuckOutcome(agent: Agent, shrinkTriggered: bool, downhillNudge: bool)

  /** The agent is closer than `StuckDistance` to where it was last sampled. */
  predicate Stationary(a: Agent) {
    DistSq(a.location, a.lastLocation) < StuckDistance * StuckDistance
  }

  /**
   * One stuck check. `onStairs` is the floor-slope test, taken as an input. The distance
   * test compares squared lengths, which is the same test as comparing lengths.
   */
  function CheckIfStuck(a: Agent, onStairs: bool): (o: StuckOutcome)
    ensures Stationary(a) ==>
              o.agent.timeSinceLastMove == a.timeSinceLastMove + StallIncrement
              && o.agent.lastLocation == a.lastLocation
    ensures !Stationary(a) ==>
              o.agent.timeSinceLastMove == 0.0 && o.agent.lastLocation == a.location
    ensures o.shrinkTriggered <==>
              o.agent.timeSinceLastMove > StallThreshold && !a.capsuleShrunk
    ensures a.capsuleShrunk ==> !o.shrinkTriggered
    ensures o.downhillNudge <==> o.shrinkTriggered && onStairs
    ensures o.shrinkTriggered ==>
              o.agent == ShrinkCapsule(a.(timeSinceLastMove := o.agent.timeSinceLastMove,
                                          lastLocation := o.agent.lastLocation))
    ensures o.shrinkTriggered && !a.hasMustered ==>
              o.agent.capsuleShrunk && TargetsShrunk(o.agent)
              && CapsuleResetTimer in o.agent.timers
    ensures !o.shrinkTriggered || a.hasMustered ==>
              o.agent == a.(timeSinceLastMove := o.agent.timeSinceLastMove,
                            lastLocation := o.agent.lastLocation)
    ensures FootprintInvariant(a) ==> FootprintInvariant(o.agent)
    ensures o.agent.timers <= a.timers + {CapsuleResetTimer}
    ensures o.agent.hasMustered == a.hasMustered
            && o.agent.defaultRadius == a.defaultRadius
            && o.agent.defaultHalfHeight == a.defaultHalfHeight
  {
    var b := if DistSq(a.location, a.lastLocation) < StuckDistance * StuckDistance
             then a.(timeSinceLastMove := a.timeSinceLastMove + StallIncrement)
             else a.(timeSinceLastMove := 0.0, lastLocation := a.location);
    if b.timeSinceLastMove > StallThreshold && !b.capsuleShrunk then
      StuckOutcome(ShrinkCapsule(b), true, onStairs)
    else
      StuckOutcome(b, false, false)
  }

  /** The agent after `n` consecutive checks off the stairs. */
  function RepeatStuckCheck(a: Agent, n: nat): Agent
    decreases n
  {
    if n == 0 then a else CheckIfStuck(RepeatStuckCheck(a, n - 1), false).agent
  }

  /** Whether the `k`-th of a run of consecutive checks requests the shrink. */
  predicate ShrinkOnCheck(a: Agent, k: nat)
    requires k >= 1
  {
    CheckIfStuck(RepeatStuckCheck(a, k - 1), false).shrinkTriggered
  }

  /**
   * A stationary, unshrunk agent with no stall time only accumulates stall time over its
   * first six checks: 0.3 per check, and nothing else changes.
   */
  lemma {:induction false} StallAccumulates(a: Agent, n: nat)
    requires Stationary(a) && !a.capsuleShrunk && a.timeSinceLastMove == 0.0
    requires n <= 6
    ensures RepeatStuckCheck(a, n) == a.(timeSinceLastMove := StallIncrement * n as real)
  {
    if n == 0 {
      assert a.(timeSinceLastMove := StallIncrement * 0 as real) == a;
    } else {
      StallAccumulates(a, n - 1);
      var b := RepeatStuckCheck(a, n - 1);
      assert b.location == a.location && b.lastLocation == a.lastLocation;
      assert Stationary(b);
      assert StallIncrement * (n - 1) as real + StallIncrement == StallIncrement * n as real;
    }
  }

  /**
   * One check on a stationary, unshrunk agent with stall time `t` requests the shrink
   * exactly when `t` plus one increment exceeds the threshold.
   */
  lemma CheckAfterStall(a: Agent, t: real)
    requires Stationary(a) && !a.capsuleShrunk
    ensures CheckIfStuck(a.(timeSinceLastMove := t), false).shrinkTriggered
            <==> t + StallIncrement > StallThreshold
  {
    assert Stationary(a.(timeSinceLastMove := t));
  }

  /**
   * A stationary, unshrunk agent that has not mustered, starting with no stall time, has
   * the shrink requested on exactly the seventh check (1.8 <= 2.0 < 2.1), and that check
   * leaves the footprint shrunk with the restore timer armed.
   */
  lemma ShrinkOnSeventhCheck(a: Agent)
    requires Stationary(a) && !a.capsuleShrunk && !a.hasMustered && a.timeSinceLastMove == 0.0
    ensures forall k: nat :: 1 <= k <= 7 ==> (ShrinkOnCheck(a, k) <==> k == 7)
    ensures RepeatStuckCheck(a, 7).capsuleShrunk
    ensures CapsuleResetTimer in RepeatStuckCheck(a, 7).timers
  {
    ShrinkOnCheckExactly(a, 7);
    TriggeredCheckShrinks(a, 6);
    forall k: nat | 1 <= k <= 7
      ensures ShrinkOnCheck(a, k) <==> k == 7
    {
      ShrinkOnCheckExactly(a, k);
    }
  }

  /** Stuck checks never change whether the agent has mustered. */
  lemma {:induction false} ChecksKeepMustered(a: Agent, n: nat)
    ensures RepeatStuckCheck(a, n).hasMustered == a.hasMustered
  {
    if n > 0 {
      ChecksKeepMustered(a, n - 1);
    }
  }

  /** A check that requests the shrink leaves an agent that has not mustered shrunk. */
  lemma TriggeredCheckShrinks(a: Agent, n: nat)
    requires !a.hasMustered
    requires ShrinkOnCheck(a, n + 1)
    ensures RepeatStuckCheck(a, n + 1).capsuleShrunk
    ensures CapsuleResetTimer in RepeatStuckCheck(a, n + 1).timers
  {
    ChecksKeepMustered(a, n);
  }

  /** The `k`-th check, for `k` up to seven, requests the shrink exactly when `k` is seven. */
  lemma ShrinkOnCheckExactly(a: Agent, k: nat)
    requires Stationary(a) && !a.capsuleShrunk && a.timeSinceLastMove == 0.0
    requires 1 <= k <= 7
    ensures ShrinkOnCheck(a, k) <==> k == 7
  {
    StallAccumulates(a, k - 1);
    CheckAfterStall(a, StallIncrement * (k - 1) as real);
  }

  /** While the footprint stays shrunk, no further check requests a shrink. */
  lemma {:induction false} NoShrinkWhileShrunk(a: Agent, n: nat)
    requires a.capsuleShrunk
    ensures RepeatStuckCheck(a, n).capsuleShrunk
    ensures !CheckIfStuck(RepeatStuckCheck(a, n), false).shrinkTriggered
  {
    if n > 0 {
      NoShrinkWhileShrunk(a, n - 1);
    }
  }
}

=== FILE: tuning.dfy ===
/**
 * The throttled retuning of an agent: the walking speed cap from the vertical speed, the
 * avoidance weight from an estimate of the corridor width, and the refreshed neighbour
 * cache. Also the density-based weight rule, which the throttled update does not call.
 */
module Tuning {
  import opened Engine
  import opened Character

  /** Distance either side of the agent at which the corridor is sampled. */
  const WidthSampleDistance: real := 50.0

  /** A vertical speed above this means the agent is on stairs. */
  const StairsVerticalSpeed: real := 20.0

  /** Widths mapped onto the weight range: the open end first, the narrow end second. */
  const OpenWidth: real := 200.0
  const NarrowWidth: real := 80.0

  /** Avoidance weight in open space and in a narrow corridor. */
  const OpenWeight: real := 10.0
  const NarrowWeight: real := 30.0

  /** Bounds and base of the density-based weight, and its per-neighbour step. */
  const DensityMinWeight: real := 10.0
  const DensityMaxWeight: real := 15.0
  const DensityBaseWeight: real := 10.0
  const DensityStep: real := 0.2

  /**
   * The corridor width: the distance between the mesh projections of two points
   * `sample` units to either side along the right vector; twice `sample` when only one
   * side projects; zero when neither does or there is no navigation system.
   */
  function EstimateNavMeshWidth(nav: Nav, location: Vec3, right: Vec3, sample: real,
                                size: Vec3 -> real): (w: real)
    requires IsSize(size)
    ensures nav.NoNav? ==> w == 0.0
    ensures nav.NavSystem? ==>
              var l := nav.project(Add(location, Scale(right, -sample)), DefaultExtent);
              var r := nav.project(Add(location, Scale(right, sample)), DefaultExtent);
              (l.Some? && r.Some? ==> w * w == DistSq(l.value, r.value) && w >= 0.0)
              && (l.Some? != r.Some? ==> w == 2.0 * sample)
              && (l.None? && r.None? ==> w == 0.0)
    ensures sample >= 0.0 ==> w >= 0.0
  {
    match nav
    case NoNav => 0.0
    case NavSystem(project) =>
      var left := project(Add(location, Scale(right, -sample)), DefaultExtent);
      var rightPoint := project(Add(location, Scale(right, sample)), DefaultExtent);
      if left.Some? && rightPoint.Some? then
        assert IsLengthOf(size, Sub(left.value, rightPoint.value));
        size(Sub(left.value, rightPoint.value))
      else if left.Some? || rightPoint.Some? then
        sample * 2.0
      else
        0.0
  }

  /**
   * The estimate does not depend on which way the agent faces: turning the right vector
   * around swaps the two sample points and leaves the width unchanged.
   */
  lemma WidthIgnoresFacing(nav: Nav, location: Vec3, right: Vec3, sample: real,
                           size: Vec3 -> real)
    requires IsSize(size)
    ensures EstimateNavMeshWidth(nav, location, Scale(right, -1.0), sample, size)
            == EstimateNavMeshWidth(nav, location, right, sample, size)
  {
    if nav.NavSystem? {
      var flipped := Scale(right, -1.0);
      assert Scale(flipped, -sample) == Scale(right, sample);
      assert Scale(flipped, sample) == Scale(right, -sample);
      var l := nav.project(Add(location, Scale(right, -sample)), DefaultExtent);
      var r := nav.project(Add(location, Scale(right, sample)), DefaultExtent);
      if l.Some? && r.Some? {
        var d1 := Sub(r.value, l.value);
        var d2 := Sub(l.value, r.value);
        assert IsLengthOf(size, d1);
        assert IsLengthOf(size, d2);
        assert d1 == Scale(d2, -1.0);
        SizeSqScale(d2, -1.0);
        if size(d1) < size(d2) {
          SquareStrictMono(size(d1), size(d2));
        } else if size(d2) < size(d1) {
          SquareStrictMono(size(d2), size(d1));
        }
      }
    }
  }

  /**
   * The avoidance weight for a corridor width: the clamped linear map that sends a width
   * of 200 or more to 10 and a width of 80 or less to 30.
   */
  function AvoidanceWeightForWidth(width: real): (r: real)
    ensures OpenWeight <= r <= NarrowWeight
  {
    MappedRangeClamped(OpenWidth, NarrowWidth, OpenWeight, NarrowWeight, width)
  }

  /** The weight in closed form: 10 plus 20 times the clamped narrowness. */
  lemma WeightClosedForm(width: real)
    ensures width <= NarrowWidth ==> AvoidanceWeightForWidth(width) == NarrowWeight
    ensures width >= OpenWidth ==> AvoidanceWeightForWidth(width) == OpenWeight
    ensures NarrowWidth < width < OpenWidth ==>
              AvoidanceWeightForWidth(width) == OpenWeight + (OpenWidth - width) / 6.0
  {
    var pct := (width - OpenWidth) / (NarrowWidth - OpenWidth);
    assert pct == (OpenWidth - width) / 120.0;
  }

  /** A wider corridor never gets a larger weight. */
  lemma WeightNonIncreasing(w1: real, w2: real)
    requires w1 <= w2
    ensures AvoidanceWeightForWidth(w1) >= AvoidanceWeightForWidth(w2)
  {
    WeightClosedForm(w1);
    WeightClosedForm(w2);
  }

  /**
   * The throttled update. `overlaps` is the result of the agent's overlap query for other
   * agents; it replaces the neighbour cache.
   */
  function ThrottledUpdate(a: Agent, nav: Nav, overlaps: seq<nat>, size: Vec3 -> real): (r: Agent)
    requires IsSize(size)
    ensures r.maxWalkSpeed == (if Abs(a.velocity.z) > StairsVerticalSpeed
                               then a.walkSpeedOnStairs else a.walkSpeedOnFlat)
    ensures r.avoidanceWeight
            == AvoidanceWeightForWidth(EstimateNavMeshWidth(nav, a.location, a.rightVector,
                                                            WidthSampleDistance, size))
    ensures OpenWeight <= r.avoidanceWeight <= NarrowWeight
    ensures nav.NoNav? ==> r.avoidanceWeight == NarrowWeight
    ensures r.nearbyAgents == overlaps
    ensures r.(maxWalkSpeed := a.maxWalkSpeed, avoidanceWeight := a.avoidanceWeight,
               nearbyAgents := a.nearbyAgents) == a
  {
    var speed := if Abs(a.velocity.z) > StairsVerticalSpeed then a.walkSpeedOnStairs
                 else a.walkSpeedOnFlat;
    var width := EstimateNavMeshWidth(nav, a.location, a.rightVector, WidthSampleDistance, size);
    WeightClosedForm(width);
    a.(maxWalkSpeed := speed,
       avoidanceWeight := AvoidanceWeightForWidth(width),
       nearbyAgents := overlaps)
  }

  /**
   * In a corridor where only one side projects onto the mesh, the estimate is 100 units
   * and the weight is 10 + 100/6, between the open and the narrow weights.
   */
  lemma OneSidedCorridorWeight(a: Agent, nav: Nav, overlaps: seq<nat>, size: Vec3 -> real)
    requires IsSize(size)
    requires nav.NavSystem?
    requires nav.project(Add(a.location, Scale(a.rightVector, -WidthSampleDistance)), DefaultExtent).Some?
             != nav.project(Add(a.location, Scale(a.rightVector, WidthSampleDistance)), DefaultExtent).Some?
    ensures ThrottledUpdate(a, nav, overlaps, size).avoidanceWeight == OpenWeight + 100.0 / 6.0
  {
    WeightClosedForm(2.0 * WidthSampleDistance);
  }

  /**
   * Where both sides project onto the mesh, a corridor at most 80 units across gets the
   * narrow weight 30 and one at least 200 units across gets the open weight 10.
   */
  lemma CorridorExtremesWeight(a: Agent, nav: Nav, overlaps: seq<nat>, size: Vec3 -> real)
    requires IsSize(size)
    requires nav.NavSystem?
    requires nav.project(Add(a.location, Scale(a.rightVector, -WidthSampleDistance)), DefaultExtent).Some?
    requires nav.project(Add(a.location, Scale(a.rightVector, WidthSampleDistance)), DefaultExtent).Some?
    ensures var l := nav.project(Add(a.location, Scale(a.rightVector, -WidthSampleDistance)),
                                 DefaultExtent).value;
            var r := nav.project(Add(a.location, Scale(a.rightVector, WidthSampleDistance)),
                                 DefaultExtent).value;
            var weight := ThrottledUpdate(a, nav, overlaps, size).avoidanceWeight;
            (DistSq(l, r) <= NarrowWidth * NarrowWidth ==> weight == NarrowWeight)
            && (DistSq(l, r) >= OpenWidth * OpenWidth ==> weight == OpenWeight)
  {
    var w := EstimateNavMeshWidth(nav, a.location, a.rightVector, WidthSampleDistance, size);
    WeightClosedForm(w);
    if w > NarrowWidth {
      SquareStrictMono(NarrowWidth, w);
    }
    if w < OpenWidth {
      SquareStrictMono(w, OpenWidth);
    }
  }

  /**
   * The density-based weight: 10 less 0.2 per neighbour, clamped to [10, 15]. It sets
   * both the agent's own weight and the movement component's.
   */
  function AdjustAvoidanceWeight(a: Agent, nearby: int): (r: Agent)
    ensures DensityMinWeight <= r.customAvoidanceWeight <= DensityMaxWeight
    ensures r.avoidanceWeight == r.customAvoidanceWeight
    ensures r.customAvoidanceWeight == DensityMinWeight <==> nearby >= 0
    ensures r.(customAvoidanceWeight := a.customAvoidanceWeight,
               avoidanceWeight := a.avoidanceWeight) == a
  {
    var w := Clamp(DensityBaseWeight - nearby as real * DensityStep, DensityMinWeight, DensityMaxWeight);
    a.(customAvoidanceWeight := w, avoidanceWeight := w)
  }
}
